=== FILE: README.md ===
# Colour-by-number: a verified model of the pixel logic

The program turns an uploaded picture into a colour-by-number sheet:

- **Outline.** It posterizes the picture to a chosen number of levels and shows up to twelve of the resulting colours as swatches.
- **Click.** Once a picture is uploaded, each click on the canvas paints at most one pixel. In paint mode it uses the chosen swatch; in reveal mode it uses the original picture's colour. A click past the end of a row paints nothing. The click records an event, unless paint mode has no chosen swatch, in a progress object. The object is keyed by the colour the work buffer holds at the click index. That is the posterized colour once an outline has been made, and the uploaded colour before. Before any upload a click changes nothing.
- **Save and load.** The progress can be saved and loaded back. Loading replaces the progress. Once a picture is loaded, it also redraws the canvas by replaying every recorded click over the work buffer; before an upload the canvas is left as it was.

This project models that logic as pure Dafny functions over an explicit page state.

Modules, one per part of the program:

- `Options`: an option type.
- `Image`: RGBA byte buffers, pixel indexing, and the 1×1 opaque fill.
- `Posterizer`: the per-channel quantiser, including the rounding a clamped byte array applies on store, and the whole-buffer posterize.
- `ColourText`: the `rgb(r,g,b)` string and the recovery of its numbers by the global pattern `\d+`.
- `PaletteExtractor`: first-seen deduplication, the twelve-swatch cut, and the scan loop with its set of colour strings.
- `Progress`: the progress record (keys in insertion order, event lists), its replay and redraw.
- `App`: the page state and the handlers. These are upload, the controls, swatch choice, outline, click, save and load. This module also holds the session-level theorems.

Modelling choices:

- **Quantiser.** The channel value v with L levels falls in bucket k = floor(v·L/256). The byte actually stored is round(k·256/L), which is `(512·k + L) div (2·L)`. ToUint8Clamp rounds halves to even, but for 1 ≤ L ≤ 256 the exact quotient is never a half (`Posterizer.NoHalfway`), so no tie arises. All arithmetic is exact integer arithmetic; "## Left out" names the few level counts where the program's double arithmetic lands elsewhere.
- **Progress keys.** A key is the `rgb(r,g,b)` string of a work-buffer colour. It is modelled by the colour itself, which is sound because the string is injective on colours (`ColourText.FormatInjective`). The record keeps its keys in insertion order, as JavaScript objects do for keys that are not array indices. The redraw visits keys in that order.
- **Consistency invariant.** `App.Replayable` says two things: every event inside the image sits under the work-buffer colour of its pixel, and the canvas equals the redraw of the progress. Clicks preserve it, so loading a just-saved record changes nothing.

Behaviour of the program that the model makes explicit:

- **Idempotence.** Posterizing is not idempotent in general. It stores round(k·256/L), so with six levels 255 becomes 213, then 171. It is idempotent when L divides 256.
- **Outline re-reads the canvas.** The outline button reads the current canvas back (paint included) before posterizing, so repeated outlines keep shifting colours.
- **Upload keeps state.** A new upload replaces the three buffers and the image size. It keeps the progress, the swatches and the chosen colour: nothing in the program clears them.
- **Clicks past the end of a row.** The click index is (y·w+x)·4, so a point to the right of the image whose index still falls inside the buffer reads a pixel of the next row. The click is keyed by that pixel's colour and its event is recorded, but the 1×1 fill outside the canvas draws nothing.
- **Handlers before an upload.**
  - A click or an outline before any upload changes nothing: the click handler fails on the missing image data, and the outline handler shows an alert.
  - A load before any upload replaces the progress and then fails in the redraw, so the canvas is unchanged.

## Model

| member | source | states |
|---|---|---|
| Image.IndexInRange | script.js:94 | for a pixel inside the image, the byte index (y·w+x)·4 is a multiple of 4, its four bytes lie inside the 4·w·h buffer, and index/4 is the pixel's row-major number |
| Image.PixelNumberInjective | script.js:94 | two pixels inside the image share a byte index exactly when they are the same pixel |
| Image.PixelRgbIsPixel | script.js:94-95 | the colour read at the click index is the entry of that pixel in the row-major list of pixel colours |
| Image.ClickColour | script.js:94-95 | the colour read at the click index is pixel number y·w+x of the row-major pixel list, and for a point inside the image it is that pixel's colour |
| Image.Fill | script.js:104-105 | a 1×1 fill inside the image sets that pixel's R, G, B to the (clamped) colour and alpha to 255 and leaves every other byte alone; a fill outside the image changes nothing |
| Posterizer.ToUint8Clamp | script.js:64-66 | storing into a clamped byte array gives a byte: 0 for non-positive values, 255 from 255 up, otherwise the integer within half a unit of the value, with an exact half going to the even neighbour |
| Posterizer.NoHalfway | script.js:64-66 | k·256/L is never exactly halfway between two integers when 1 ≤ L ≤ 256, so round-half-to-even never meets a tie |
| Posterizer.StoredLevel | script.js:64-66 | the byte stored for bucket k is round(k·256/L), computed as (512k+L) div 2L |
| Posterizer.Quantize | script.js:64-66 | the bucket floor(v·L/256) lies in 0..L-1, the stored byte is that bucket's level, and it never exceeds the input byte |
| Posterizer.QuantizeMonotone | script.js:64-66 | a larger input byte never gives a smaller output byte |
| Posterizer.QuantizeAtMostLValues | script.js:64-66 | every output byte is the level of one of the L buckets, and there are at most L such levels |
| Posterizer.QuantizeWhenDivides | script.js:64-66 | when L divides 256 the output is v rounded down to a multiple of 256/L |
| Posterizer.QuantizeIdempotentWhenDivides | script.js:64-66 | when L divides 256 quantizing twice equals quantizing once |
| Posterizer.QuantizeNotIdempotent | script.js:64-66 | with L = 6 the byte 255 becomes 213 and 213 becomes 171, so quantizing is not idempotent in general |
| Posterizer.Posterize | script.js:62-69 | posterizing keeps the buffer length and every alpha byte, replaces each R, G, B byte by its quantized value (never larger), and yields bytes |
| Posterizer.PosterizeIdempotentWhenDivides | script.js:62-69 | when L divides 256 posterizing a buffer twice equals posterizing it once |
| Posterizer.PosterizeNotIdempotent | script.js:62-69 | a white opaque pixel posterized with six levels twice ends at 171, not at the 213 of the first pass |
| ColourText.Decimal | script.js:75 | the numeral of a natural number is a non-empty digit string without a leading zero |
| ColourText.ParseDecimal | script.js:111 | Number applied to the numeral of n gives n back |
| ColourText.DigitsOfFormat | script.js:111 | the global match of \d+ on "rgb(r,g,b)" is never null, and mapped through Number it is exactly [r, g, b] |
| ColourText.FormatRgb | script.js:75 | the colour string has the shape "rgb(…)"; FormatInjective and DigitsOfFormat state what it encodes |
| ColourText.Digits | script.js:111 | a string without digits makes `match` return null, so the call throws (None), and only then; otherwise `match(/\d+/g).map(Number)` gives at least one number and none is negative. A single run of at most fifteen digits gives its own value. ColourText.DigitsOfFormat states the exact result on a formatted colour |
| ColourText.FormatInjective | script.js:75 | two colours have the same "rgb(r,g,b)" string exactly when they are the same colour |
| PaletteExtractor.Dedup | script.js:73-77 | the distinct colours contain no repetition and have exactly the members of the scanned list |
| PaletteExtractor.DedupFirstSeen | script.js:73-77 | the distinct colours are listed in the order of their first occurrence |
| PaletteExtractor.DedupSize | script.js:73-77 | there are exactly as many distinct colours as the set of colours has members |
| PaletteExtractor.Palette | script.js:72-79 | the swatches are at most twelve, without repetition, each the colour of some pixel, in first-occurrence order, and a pixel colour is missing only when twelve swatches are taken |
| PaletteExtractor.PaletteMembership | script.js:79 | a colour is a swatch exactly when it occurs and fewer than twelve distinct colours occur before its first occurrence |
| PaletteExtractor.PaletteComplete | script.js:79 | with at most twelve distinct colours every pixel colour is a swatch and every swatch a pixel colour |
| PaletteExtractor.ScanColours | script.js:73-77 | the scan that adds each pixel's colour string to an insertion-ordered set yields the distinct colours in first-seen order |
| PaletteExtractor.ExtractPalette | script.js:72-79 | the scan followed by the cut at twelve yields the swatches |
| Progress.Find | script.js:97 | the lookup of a key finds it exactly when it is one of the record's keys, at a position holding that key |
| Progress.EnsureKey | script.js:97 | creating a missing key appends it, with an empty list, after all other keys; an existing key leaves the record as it is; no event list changes |
| Progress.Push | script.js:106 | appending an event adds it at the end of its key's list and changes no other list and no key |
| Progress.ReplayAt | script.js:132-137 | after replaying fills, each byte is the matching byte of the last fill of its pixel, or the original byte if no fill touched the pixel |
| Progress.ReplayInsert | script.js:132-137 | inserting a fill into a replay is the same as filling last, provided no later event paints the same pixel |
| Progress.RedrawPixel | script.js:130-138 | after a redraw a pixel without events shows its work-buffer bytes, and a pixel with events the colour of its last event in key-then-list order |
| Progress.SamePixelSameKey | script.js:95-97 | while every event inside the image sits under its pixel's work-buffer colour, all events of one pixel share one key |
| Progress.KeyedAfterPush | script.js:95-111 | appending an event under the work-buffer colour of its pixel (any key for an event outside the image) keeps every event under its pixel's key |
| Progress.RedrawAfterClick | script.js:94-111 | recording a click under the work-buffer colour of its pixel keeps every event under its pixel's key and makes the redraw equal the old redraw with that pixel filled; an event outside the image may sit under any key and leaves the redraw unchanged |
| Progress.Redraw | script.js:130-138 | a redraw keeps the buffer size and yields bytes when the work buffer holds bytes; RedrawPixel says what each pixel shows |
| App.Init | script.js:10-14 | the page starts without image, progress, swatches or chosen colour, and with six levels. Reveal mode starts off because the toggle is assumed to start unchecked: the page markup sets it, not these lines |
| App.Upload | script.js:25-31 | an upload of a w-by-h image sets the canvas size to w by h, makes the decoded image the original, the work buffer and the canvas, and keeps progress, swatches, chosen colour and controls |
| App.SetLevels | script.js:40-48 | the colour-count controls set the level count and change nothing else |
| App.SetReveal | script.js:99 | the reveal toggle sets the mode a click reads and changes nothing else |
| App.PickSwatch | script.js:83 | clicking swatch i makes its colour the current colour and changes nothing else |
| App.Outline | script.js:51-59 | without an image nothing changes; otherwise the canvas is read back, posterized and shown, the swatches are extracted from it; the original, progress, chosen colour, size, level count and reveal mode stay |
| App.PaintEvent | script.js:111 | the event recorded for a paint click carries the click position and exactly the components of the current colour |
| App.Click | script.js:89-113 | before an upload nothing changes; otherwise the key (the work colour read at the click index) gets a list if it had none; reveal mode appends and paints the original colour; paint mode appends and paints the current colour, or only creates the list without one; only that pixel of the canvas and only that key's list change |
| App.Save | script.js:116-119 | the saved record has the same keys in the same order and the same list under every key, and is accepted by the load button |
| App.Load | script.js:121-128 | nothing stored leaves the page unchanged; otherwise the stored record replaces the progress and, once an image is loaded, the canvas becomes its redraw |
| App.ClickKeepsReplayable | script.js:89-113 | a click keeps every event under its pixel's work colour and the canvas equal to the redraw of the progress |
| App.Step | script.js:89-113 | clicks, swatch choices and control changes never touch the work buffer, the original, the swatches or the image size |
| App.Run | script.js:89-113 | a session of such actions keeps the page well formed and never touches the work buffer, the original, the swatches or the image size |
| App.RunKeepsReplayable | script.js:130-138 | the canvas stays equal to the redraw of the progress through any session of clicks and control changes |
| App.SaveLoadRoundTrip | script.js:116-128 | loading what was just saved leaves the page unchanged, canvas included |
| App.SessionReplay | script.js:116-138 | starting from empty progress right after an outline, a save and load after any session reproduces the page exactly |
| App.LoadEmptyShowsWork | script.js:130-138 | loading an empty record onto a loaded page shows the work buffer |
| App.OutlineAfterUpload | script.js:51-59 | an outline right after an upload posterizes the uploaded image |
| App.OutlineTwiceWhenDivides | script.js:56-58 | with a level count dividing 256 a second outline changes nothing |
| App.RepeatedOutlineShifts | script.js:56-57 | with six levels a white pixel becomes 213 on the first outline and 171 on the second, while the original stays white |
| App.TwoPixelOutline | script.js:56-58 | with two levels, pixels (200,0,0) and (10,10,10) become (128,0,0) and (0,0,0), and those are the swatches in that order |
| App.TwoPixelPaint | script.js:107-111 | painting pixel (0,0) of that image with the black swatch records it under (128,0,0) and turns it black |
| App.TwoPixelReveal | script.js:99-106 | in reveal mode the same click records and paints the original (200,0,0) |
| App.RowEndReadsNextRow | script.js:94 | on an image at least two rows high, the click index of (w, 0) is that of pixel (0, 1), although (w, 0) lies outside the image |
| App.FirstPaint | script.js:97-111 | a paint click on empty progress leaves exactly one key, the colour read at the click index, holding exactly that click |
| App.ClickPastRowEnd | script.js:94-111 | a paint click at (w, 0) is recorded under the work colour of pixel (0, 1) and leaves the canvas unchanged |

## Left out

- ColourText.Digits: runs longer than fifteen digits get their exact value, while Number rounds values above 2^53 to a double. The program only parses runs of at most three digits.
- The page elements, event listeners, alerts and swatch elements are user-interface plumbing. The model keeps only the state they change.
- File reading and image decoding are asynchronous I/O. An upload takes the decoded RGBA bytes and the size as parameters.
- App.Upload: requires an image at least one pixel wide and high. For a zero-size image, reading the pixels back throws, so the original and the work buffer keep their old contents while the canvas is resized; that inconsistent page is not modelled.
- The conversion of viewport coordinates to pixel coordinates is floating-point geometry. A click takes integer pixel coordinates.
- App.Click: requires, once an image is loaded, that the click index (y·w+x)·4 addresses a pixel of the buffer. A negative index, or one at or past the end of the buffer, reads undefined bytes and keys the click as "rgb(undefined,undefined,undefined)", which has no counterpart among colours.
- Posterizer.Quantize: `256 / levels` and the division and product around it are evaluated exactly, not in IEEE-754 doubles. The two agree for every byte when L ≤ 185. For L = 186, 198, 210, 234 and 246 they differ at v = 128: 128 divided by the double 256/L falls just below the exact bucket boundary, so the program stores 127 where Quantize gives 128. Posterize and Outline inherit this gap.
- App.SetLevels: requires 1 ≤ L ≤ 256. The NaN that `parseInt` gives for an empty field, counts of 0 or below, and counts above 256 are not modelled.
- Saving and loading store the record verbatim, leaving out the browser's key-value storage and the JSON text round trip. Malformed stored data and the two-number event form of older saves are not modelled. A loaded record is assumed to have distinct keys, as any JSON object does.
- Canvas compositing is modelled as an opaque fill: the fill colour's R, G, B with alpha 255. Colour-management and premultiplied-alpha effects of reading pixels back are not modelled.
- The PNG export is a foreign encoder with no effect on the state.
- Out-of-order completion of two concurrent decodes is not modelled: uploads are applied in the order given.

=== FILE: app.dfy ===
/**
  The page's state and its event handlers as pure transitions: upload,
  colour-count and reveal controls, swatch choice, outline creation,
  canvas clicks, and saving and loading progress.
 */
module App {
  import opened Options
  import opened Image
  import opened Posterizer
  import opened ColourText
  import opened PaletteExtractor
  import opened Progress

  /** Number of colour levels before the user touches the slider. */
  const DefaultLevels := 6

  /**
    The page state. `loaded` says an image has been decoded; `work` is the
    image data that posterizing rewrites and clicks read their target colour
    from; `canvas` is what the canvas shows; `palette` holds the swatches of
    the last outline; `current` is the chosen swatch colour, if any.
   */
  datatype State = State(
    loaded: bool,
    width: nat,
    height: nat,
    original: seq<int>,
    work: seq<int>,
    canvas: seq<int>,
    progress: Record,
    current: Option<Rgb>,
    revealMode: bool,
    levels: int,
    palette: seq<Rgb>)

  predicate WellFormed(s: State) {
    && (s.loaded ==> s.width >= 1 && s.height >= 1)
    && |s.original| == 4 * (s.width * s.height)
    && |s.work| == 4 * (s.width * s.height)
    && |s.canvas| == 4 * (s.width * s.height)
    && Bytes(s.original) && Bytes(s.work) && Bytes(s.canvas)
    && 1 <= s.levels <= 256
    && (s.current.Some? ==> ByteRgb(s.current.value))
    && (forall i :: 0 <= i < |s.palette| ==> ByteRgb(s.palette[i]))
    && DistinctKeys(s.progress)
  }

  /** The page before any image is chosen. */
  function Init(): (s: State)
    ensures WellFormed(s)
    ensures !s.loaded && s.progress == [] && s.current.None? && s.palette == []
    ensures s.levels == DefaultLevels && !s.revealMode
  {
    State(false, 0, 0, [], [], [], [], None, false, DefaultLevels, [])
  }

  /**
    A decoded image of w by h pixels becomes the original, the work buffer
    and the canvas, and sets the canvas size. Progress, swatches, chosen
    colour and controls are kept.
   */
  function Upload(s: State, w: nat, h: nat, img: seq<int>): (r: State)
    requires WellFormed(s) && w >= 1 && h >= 1 && |img| == 4 * (w * h) && Bytes(img)
    ensures WellFormed(r) && r.loaded
    ensures r.width == w && r.height == h
    ensures r.original == img && r.work == img && r.canvas == img
    ensures r.progress == s.progress && r.palette == s.palette && r.current == s.current
    ensures r.revealMode == s.revealMode && r.levels == s.levels
  {
    s.(loaded := true, width := w, height := h, original := img, work := img, canvas := img)
  }

  function SetLevels(s: State, n: int): (r: State)
    requires WellFormed(s) && 1 <= n <= 256
    ensures WellFormed(r) && r.levels == n
    ensures r.(levels := s.levels) == s
  {
    s.(levels := n)
  }

  function SetReveal(s: State, on: bool): (r: State)
    requires WellFormed(s)
    ensures WellFormed(r) && r.revealMode == on
    ensures r.(revealMode := s.revealMode) == s
  {
    s.(revealMode := on)
  }

  /** Clicking swatch i makes its colour the current colour. */
  function PickSwatch(s: State, i: int): (r: State)
    requires WellFormed(s) && 0 <= i < |s.palette|
    ensures WellFormed(r) && r.current == Some(s.palette[i])
    ensures r.(current := s.current) == s
  {
    s.(current := Some(s.palette[i]))
  }

  /**
    The outline button. Without an image nothing changes. Otherwise the
    canvas as it is now (paint included) is read back, posterized with the
    current level count and shown, and the swatches are extracted from it.
    The original image and the progress are left alone.
   */
  function Outline(s: State): (r: State)
    requires WellFormed(s)
    ensures WellFormed(r)
    ensures !s.loaded ==> r == s
    ensures s.loaded ==> r.work == Posterize(s.canvas, s.levels) && r.canvas == r.work
    ensures s.loaded ==> r.palette == Palette(r.work)
    ensures r.original == s.original && r.progress == s.progress && r.current == s.current
    ensures r.loaded == s.loaded && r.width == s.width && r.height == s.height
    ensures r.revealMode == s.revealMode && r.levels == s.levels
  {
    if !s.loaded then s
    else
      var work := Posterize(s.canvas, s.levels);
      PaletteBytes(work);
      s.(work := work, canvas := work, palette := Palette(work))
  }

  /** Swatches of a byte buffer are byte colours. */
  lemma PaletteBytes(buf: seq<int>)
    requires |buf| % 4 == 0 && Bytes(buf)
    ensures forall i :: 0 <= i < |Palette(buf)| ==> ByteRgb(Palette(buf)[i])
  {
    var px := Pixels(buf);
    forall i | 0 <= i < |Palette(buf)|
      ensures ByteRgb(Palette(buf)[i])
    {
      var c := Palette(buf)[i];
      assert px[FirstIndex(px, c)] == c;
    }
  }

  /** The event a paint click records: the click position and the numbers read back out of "rgb(r,g,b)". */
  function PaintEvent(x: int, y: int, colour: Rgb): (e: Event)
    requires NonNegative(colour)
    ensures e == Event(x, y, colour)
  {
    DigitsOfFormat(colour);
    var ds := Digits(FormatRgb(colour)).value;
    Event(x, y, Rgb(ds[0], ds[1], ds[2]))
  }

  /**
    A click at (x, y). The target colour, the key of the record, is the
    work-buffer colour read at the click index; its list is created if
    missing. In reveal mode the original colour read there is painted and
    recorded; in paint mode the current colour is, and without a current
    colour nothing more happens. A point past the end of a row reads a pixel
    of a neighbouring row and paints nothing, but its event is recorded.
   */
  function Click(s: State, x: int, y: int): (r: State)
    requires WellFormed(s)
    requires s.loaded ==> ReadsPixel(x, y, s.width, s.height)
    ensures WellFormed(r)
    ensures r.(canvas := s.canvas, progress := s.progress) == s
    ensures !s.loaded ==> r == s
    ensures s.loaded ==>
              var w, h := s.width, s.height;
              var key := ClickColour(s.work, w, h, x, y);
              && Find(r.progress, key).Some?
              && Keys(r.progress) == (if key in Keys(s.progress) then Keys(s.progress) else Keys(s.progress) + [key])
              && (forall k :: k != key ==> EventsOf(r.progress, k) == EventsOf(s.progress, k))
              && (forall k :: 0 <= k < |s.canvas| && !(Index(x, y, w) <= k < Index(x, y, w) + 4) ==> r.canvas[k] == s.canvas[k])
              && (s.revealMode ==>
                    var c := ClickColour(s.original, w, h, x, y);
                    EventsOf(r.progress, key) == EventsOf(s.progress, key) + [Event(x, y, c)]
                    && r.canvas == Fill(s.canvas, w, h, x, y, c))
              && (!s.revealMode && s.current.None? ==>
                    EventsOf(r.progress, key) == EventsOf(s.progress, key) && r.canvas == s.canvas)
              && (!s.revealMode && s.current.Some? ==>
                    EventsOf(r.progress, key) == EventsOf(s.progress, key) + [Event(x, y, s.current.value)]
                    && r.canvas == Fill(s.canvas, w, h, x, y, s.current.value))
  {
    if !s.loaded then s
    else
      var w, h := s.width, s.height;
      var key := ClickColour(s.work, w, h, x, y);
      var progress := EnsureKey(s.progress, key);
      if s.revealMode then
        var c := ClickColour(s.original, w, h, x, y);
        s.(canvas := Fill(s.canvas, w, h, x, y, c), progress := Push(progress, key, Event(x, y, c)))
      else if s.current.None? then
        s.(progress := progress)
      else
        var c := s.current.value;
        s.(canvas := Fill(s.canvas, w, h, x, y, c), progress := Push(progress, key, PaintEvent(x, y, c)))
  }

  /** What the save button stores: the whole record, verbatim, in a form the load button accepts. */
  function Save(s: State): (saved: Option<Record>)
    requires WellFormed(s)
    ensures saved.Some? && DistinctKeys(saved.value)
    ensures Keys(saved.value) == Keys(s.progress)
    ensures forall k :: EventsOf(saved.value, k) == EventsOf(s.progress, k)
  {
    Some(s.progress)
  }

  /**
    The load button. Nothing stored: nothing happens. Otherwise the stored
    record replaces the progress wholesale and the canvas is redrawn from
    the work buffer; before any upload the redraw fails, after the progress
    was already replaced.
   */
  function Load(s: State, saved: Option<Record>): (r: State)
    requires WellFormed(s)
    requires saved.Some? ==> DistinctKeys(saved.value)
    ensures WellFormed(r)
    ensures saved.None? ==> r == s
    ensures saved.Some? ==> r.progress == saved.value
    ensures saved.Some? ==> r.(canvas := s.canvas, progress := s.progress) == s
    ensures saved.Some? && !s.loaded ==> r.canvas == s.canvas
    ensures saved.Some? && s.loaded ==> r.canvas == Redraw(s.work, s.width, s.height, saved.value)
  {
    match saved
    case None => s
    case Some(p) =>
      if !s.loaded then s.(progress := p)
      else s.(progress := p, canvas := Redraw(s.work, s.width, s.height, p))
  }

  /**
    The canvas is what a redraw of the progress would show, and every
    recorded event sits under the work colour of its pixel.
   */
  predicate Replayable(s: State) {
    WellFormed(s) &&
    (s.loaded ==>
       KeyedBy(s.work, s.width, s.height, s.progress)
       && s.canvas == Redraw(s.work, s.width, s.height, s.progress))
  }

  /** A click keeps the canvas equal to the redraw of the progress. */
  lemma ClickKeepsReplayable(s: State, x: int, y: int)
    requires Replayable(s)
    requires s.loaded ==> ReadsPixel(x, y, s.width, s.height)
    ensures Replayable(Click(s, x, y))
  {
    if s.loaded {
      var w, h := s.width, s.height;
      var key := ClickColour(s.work, w, h, x, y);
      if s.revealMode {
        var c := ClickColour(s.original, w, h, x, y);
        assert Click(s, x, y) == Recorded(s, x, y, c);
        RecordedReplayable(s, x, y, c);
      } else if s.current.Some? {
        var c := s.current.value;
        assert Click(s, x, y) == Recorded(s, x, y, c);
        RecordedReplayable(s, x, y, c);
      } else {
        assert Click(s, x, y) == s.(progress := EnsureKey(s.progress, key));
        KeyedAfterEnsureKey(s.work, w, h, s.progress, key);
      }
    }
  }

  /** The state after a click that fills pixel (x, y) with c and records it under the work colour read there. */
  function Recorded(s: State, x: int, y: int, c: Rgb): State
    requires WellFormed(s) && ReadsPixel(x, y, s.width, s.height)
  {
    var key := ClickColour(s.work, s.width, s.height, x, y);
    s.(canvas := Fill(s.canvas, s.width, s.height, x, y, c),
       progress := Push(EnsureKey(s.progress, key), key, Event(x, y, c)))
  }

  lemma RecordedReplayable(s: State, x: int, y: int, c: Rgb)
    requires Replayable(s) && s.loaded && ReadsPixel(x, y, s.width, s.height) && ByteRgb(c)
    ensures Replayable(Recorded(s, x, y, c))
  {
    var key := ClickColour(s.work, s.width, s.height, x, y);
    RedrawAfterClick(s.work, s.width, s.height, s.progress, key, Event(x, y, c));
  }

  /** The user actions that leave the work buffer alone. */
  datatype Action =
    | ClickAt(x: int, y: int)
    | ChooseSwatch(i: int)
    | ToggleReveal(on: bool)
    | ChangeLevels(n: int)

  predicate Allowed(s: State, a: Action) {
    match a
    case ClickAt(x, y) => s.loaded ==> ReadsPixel(x, y, s.width, s.height)
    case ChooseSwatch(i) => 0 <= i < |s.palette|
    case ToggleReveal(_) => true
    case ChangeLevels(n) => 1 <= n <= 256
  }

  function Step(s: State, a: Action): (r: State)
    requires WellFormed(s) && Allowed(s, a)
    ensures WellFormed(r)
    ensures r.loaded == s.loaded && r.width == s.width && r.height == s.height
    ensures r.work == s.work && r.original == s.original && r.palette == s.palette
  {
    match a
    case ClickAt(x, y) => Click(s, x, y)
    case ChooseSwatch(i) => PickSwatch(s, i)
    case ToggleReveal(on) => SetReveal(s, on)
    case ChangeLevels(n) => SetLevels(s, n)
  }

  /** A session of actions, applied left to right. */
  function Run(s: State, acts: seq<Action>): (r: State)
    requires WellFormed(s)
    requires forall i :: 0 <= i < |acts| ==> Allowed(s, acts[i])
    ensures WellFormed(r)
    ensures r.loaded == s.loaded && r.width == s.width && r.height == s.height
    ensures r.work == s.work && r.original == s.original && r.palette == s.palette
    decreases |acts|
  {
    if |acts| == 0 then s
    else
      var s' := Step(s, acts[0]);
      assert forall i :: 0 <= i < |acts[1..]| ==> Allowed(s', acts[1..][i]) by {
        forall i | 0 <= i < |acts[1..]|
          ensures Allowed(s', acts[1..][i])
        {
          assert Allowed(s, acts[i + 1]);
        }
      }
      Run(s', acts[1..])
  }

  lemma {:induction false} RunKeepsReplayable(s: State, acts: seq<Action>)
    requires Replayable(s)
    requires forall i :: 0 <= i < |acts| ==> Allowed(s, acts[i])
    ensures Replayable(Run(s, acts))
    decreases |acts|
  {
    if |acts| > 0 {
      var a := acts[0];
      assert Replayable(Step(s, a)) by {
        if a.ClickAt? {
          ClickKeepsReplayable(s, a.x, a.y);
        }
      }
      var s' := Step(s, a);
      forall i | 0 <= i < |acts[1..]|
        ensures Allowed(s', acts[1..][i])
      {
        assert Allowed(s, acts[i + 1]);
      }
      RunKeepsReplayable(s', acts[1..]);
    }
  }

  /** Loading what was just saved changes nothing, as long as the canvas matches its redraw. */
  lemma SaveLoadRoundTrip(s: State)
    requires Replayable(s)
    ensures Load(s, Save(s)) == s
  {
  }

  /**
    Starting from empty progress right after an outline, any sequence of
    clicks, swatch choices and control changes leaves a canvas that a save
    followed by a load reproduces exactly.
   */
  lemma SessionReplay(s: State, acts: seq<Action>)
    requires WellFormed(s) && s.progress == []
    requires forall i :: 0 <= i < |acts| ==> Allowed(Outline(s), acts[i])
    ensures Replayable(Run(Outline(s), acts))
    ensures Load(Run(Outline(s), acts), Save(Run(Outline(s), acts))) == Run(Outline(s), acts)
  {
    var s0 := Outline(s);
    if s0.loaded {
      assert Flatten([]) == [];
      assert Redraw(s0.work, s0.width, s0.height, []) == s0.work;
    }
    RunKeepsReplayable(s0, acts);
    SaveLoadRoundTrip(Run(s0, acts));
  }

  /** Loading an empty record onto a loaded page shows the work buffer and nothing else. */
  lemma LoadEmptyShowsWork(s: State)
    requires WellFormed(s) && s.loaded
    ensures Load(s, Some([])).canvas == s.work
    ensures Load(s, Some([])).progress == []
  {
    assert Flatten([]) == [];
  }

  /** Outlining right after an upload posterizes the uploaded image itself. */
  lemma OutlineAfterUpload(s: State, w: nat, h: nat, img: seq<int>)
    requires WellFormed(s) && w >= 1 && h >= 1 && |img| == 4 * (w * h) && Bytes(img)
    ensures Outline(Upload(s, w, h, img)).work == Posterize(img, s.levels)
    ensures Outline(Upload(s, w, h, img)).original == img
  {
  }

  /** With a level count dividing 256 a second outline changes nothing. */
  lemma OutlineTwiceWhenDivides(s: State)
    requires WellFormed(s) && 256 % s.levels == 0
    ensures Outline(Outline(s)) == Outline(s)
  {
    if s.loaded {
      PosterizeIdempotentWhenDivides(s.canvas, s.levels);
    }
  }

  /**
    Outlining reads the canvas, not the original: with six levels a white
    pixel becomes 213 on the first outline and 171 on the second.
   */
  lemma RepeatedOutlineShifts()
    ensures var s1 := Outline(Upload(Init(), 1, 1, [255, 255, 255, 255]));
            s1.work == [213, 213, 213, 255]
            && Outline(s1).work == [171, 171, 171, 255]
            && Outline(s1).original == [255, 255, 255, 255]
  {
    PosterizeNotIdempotent();
  }

  /** The two-pixel image (200,0,0), (10,10,10), uploaded and set to two levels. */
  function TwoPixelStart(): (s: State)
    ensures WellFormed(s) && s.loaded && s.width == 2 && s.height == 1 && s.levels == 2
    ensures s.original == [200, 0, 0, 255, 10, 10, 10, 255]
  {
    SetLevels(Upload(Init(), 2, 1, [200, 0, 0, 255, 10, 10, 10, 255]), 2)
  }

  lemma TwoLevelQuantize()
    ensures Quantize(200, 2) == 128 && Quantize(10, 2) == 0 && Quantize(0, 2) == 0
  {
    assert Bucket(200, 2) == 1 && Level(1, 2) == 128;
    assert Bucket(10, 2) == 0 && Bucket(0, 2) == 0 && Level(0, 2) == 0;
  }

  lemma TwoPixelPosterize()
    ensures Posterize([200, 0, 0, 255, 10, 10, 10, 255], 2) == [128, 0, 0, 255, 0, 0, 0, 255]
  {
    TwoLevelQuantize();
    var r := Posterize([200, 0, 0, 255, 10, 10, 10, 255], 2);
    assert r[0] == 128 && r[1] == 0 && r[2] == 0 && r[3] == 255;
    assert r[4] == 0 && r[5] == 0 && r[6] == 0 && r[7] == 255;
  }

  lemma TwoPixelPalette()
    ensures Palette([128, 0, 0, 255, 0, 0, 0, 255]) == [Rgb(128, 0, 0), Rgb(0, 0, 0)]
  {
    var px := Pixels([128, 0, 0, 255, 0, 0, 0, 255]);
    assert px == [Rgb(128, 0, 0), Rgb(0, 0, 0)];
    assert px[..1] == [Rgb(128, 0, 0)] && px[..0] == [];
    assert Dedup(px[..1]) == [Rgb(128, 0, 0)];
    assert Dedup(px) == px;
  }

  /** The two-pixel page after its outline: (128,0,0) and (0,0,0), both offered as swatches. */
  function TwoPixelOutlined(): (s: State)
    ensures WellFormed(s)
  {
    var work := [128, 0, 0, 255, 0, 0, 0, 255];
    State(true, 2, 1, [200, 0, 0, 255, 10, 10, 10, 255], work, work, [], None, false, 2,
          [Rgb(128, 0, 0), Rgb(0, 0, 0)])
  }

  /**
    With two levels the pixels (200,0,0) and (10,10,10) become (128,0,0) and
    (0,0,0), which are also the swatches, in that order.
   */
  lemma TwoPixelOutline()
    ensures Outline(TwoPixelStart()) == TwoPixelOutlined()
  {
    TwoPixelPosterize();
    TwoPixelPalette();
  }

  /** Filling the first pixel of the posterized two-pixel image with a byte colour. */
  lemma TwoPixelFill(c: Rgb)
    requires ByteRgb(c)
    ensures Fill([128, 0, 0, 255, 0, 0, 0, 255], 2, 1, 0, 0, c) == [c.r, c.g, c.b, 255, 0, 0, 0, 255]
  {
    var r := Fill([128, 0, 0, 255, 0, 0, 0, 255], 2, 1, 0, 0, c);
    assert Index(0, 0, 2) == 0;
    assert r[0] == c.r && r[1] == c.g && r[2] == c.b && r[3] == 255;
    assert r[4] == 0 && r[5] == 0 && r[6] == 0 && r[7] == 255;
  }

  /** The first click on an empty record creates the key's list with that one event. */
  lemma FirstRecord(k: Rgb, e: Event)
    ensures Push(EnsureKey([], k), k, e) == [Entry(k, [e])]
  {
    var p := [Entry(k, [])];
    assert EnsureKey([], k) == p;
    assert Find(p, k) == Some(0);
    assert Push(p, k, e) == p[0 := Entry(k, p[0].events + [e])];
    assert p[0].events + [e] == [e];
  }

  /** A click on pixel (0,0) of the freshly outlined two-pixel image, before anything was recorded. */
  lemma FirstClick(s: State, c: Rgb)
    requires WellFormed(s) && s.loaded && s.width == 2 && s.height == 1 && ByteRgb(c)
    requires s.work == [128, 0, 0, 255, 0, 0, 0, 255] && s.canvas == s.work && s.progress == []
    requires s.revealMode ==> ClickColour(s.original, 2, 1, 0, 0) == c
    requires !s.revealMode ==> s.current == Some(c)
    ensures Click(s, 0, 0).progress == [Entry(Rgb(128, 0, 0), [Event(0, 0, c)])]
    ensures Click(s, 0, 0).canvas == [c.r, c.g, c.b, 255, 0, 0, 0, 255]
  {
    var key := Rgb(128, 0, 0);
    assert ClickColour(s.work, 2, 1, 0, 0) == key;
    TwoPixelFill(c);
    FirstRecord(key, Event(0, 0, c));
  }

  /** Painting pixel (0,0) with the black swatch records the click under (128,0,0) and turns the pixel black. */
  lemma TwoPixelPaint()
    ensures Click(PickSwatch(TwoPixelOutlined(), 1), 0, 0).progress == [Entry(Rgb(128, 0, 0), [Event(0, 0, Rgb(0, 0, 0))])]
    ensures Click(PickSwatch(TwoPixelOutlined(), 1), 0, 0).canvas == [0, 0, 0, 255, 0, 0, 0, 255]
  {
    FirstClick(PickSwatch(TwoPixelOutlined(), 1), Rgb(0, 0, 0));
  }

  /** In reveal mode the same click records and paints the original colour (200,0,0) instead. */
  lemma TwoPixelReveal()
    ensures Click(SetReveal(TwoPixelOutlined(), true), 0, 0).progress == [Entry(Rgb(128, 0, 0), [Event(0, 0, Rgb(200, 0, 0))])]
    ensures Click(SetReveal(TwoPixelOutlined(), true), 0, 0).canvas == [200, 0, 0, 255, 0, 0, 0, 255]
  {
    var s := SetReveal(TwoPixelOutlined(), true);
    assert ClickColour(s.original, 2, 1, 0, 0) == Rgb(200, 0, 0);
    FirstClick(s, Rgb(200, 0, 0));
  }

  /**
    A click at (w, 0) on an image w pixels wide lies just past the end of the
    first row. Its index is that of pixel (0, 1), so in paint mode the click
    is keyed by that pixel's work colour; the fill draws nothing, and the
    event is recorded all the same.
   */
  lemma ClickPastRowEnd(s: State, c: Rgb)
    requires WellFormed(s) && s.loaded && s.height >= 2
    requires s.progress == [] && !s.revealMode && s.current == Some(c)
    ensures ReadsPixel(s.width, 0, s.width, s.height) && !InBounds(s.width, 0, s.width, s.height)
    ensures InBounds(0, 1, s.width, s.height)
    ensures Click(s, s.width, 0).progress == [Entry(PixelRgb(s.work, s.width, s.height, 0, 1), [Event(s.width, 0, c)])]
    ensures Click(s, s.width, 0).canvas == s.canvas
  {
    RowEndReadsNextRow(s.work, s.width, s.height);
    FirstPaint(s, s.width, 0, c);
  }

  /** The click index of (w, 0) is that of pixel (0, 1). */
  lemma RowEndReadsNextRow(buf: seq<int>, w: int, h: int)
    requires |buf| == 4 * (w * h) && w >= 1 && h >= 2
    ensures InBounds(0, 1, w, h)
    ensures ReadsPixel(w, 0, w, h) && !InBounds(w, 0, w, h)
    ensures ClickColour(buf, w, h, w, 0) == PixelRgb(buf, w, h, 0, 1)
  {
    RowEndArithmetic(w, h);
  }

  lemma RowEndArithmetic(w: int, h: int)
    requires w >= 1 && h >= 2
    ensures PixelNumber(w, 0, w) == w && PixelNumber(0, 1, w) == w && w < w * h
  {
    MulMonotone(w, 2, h);
  }

  /** A paint click on a page with empty progress records exactly that click, under the colour read at its index. */
  lemma FirstPaint(s: State, x: int, y: int, c: Rgb)
    requires WellFormed(s) && s.loaded && ReadsPixel(x, y, s.width, s.height)
    requires s.progress == [] && !s.revealMode && s.current == Some(c)
    ensures Click(s, x, y).progress == [Entry(ClickColour(s.work, s.width, s.height, x, y), [Event(x, y, c)])]
  {
    FirstRecord(ClickColour(s.work, s.width, s.height, x, y), Event(x, y, c));
  }

}

=== FILE: colourtext.dfy ===
/**
  The textual colour "rgb(r,g,b)" the program builds with a template
  literal, and the way it recovers the numbers again: every maximal run of
  decimal digits is matched by the global pattern \d+ and converted with
  Number.
 */
module ColourText {
  import opened Options
  import opened Image

  predicate IsDigit(ch: char) {
    '0' <= ch <= '9'
  }

  predicate AllDigits(s: string) {
    forall i :: 0 <= i < |s| ==> IsDigit(s[i])
  }

  predicate NoDigits(s: string) {
    forall i :: 0 <= i < |s| ==> !IsDigit(s[i])
  }

  predicate NonNegative(c: Rgb) {
    c.r >= 0 && c.g >= 0 && c.b >= 0
  }

  function DigitChar(d: int): (ch: char)
    requires 0 <= d < 10
    ensures IsDigit(ch)
  {
    (d + '0' as int) as char
  }

  function DigitValue(ch: char): int {
    ch as int - '0' as int
  }

  /**
    Decimal numeral of n, as a JavaScript template literal writes an integer
    below 10^21 (larger numbers switch to exponent notation); the program
    only ever formats bytes.
   */
  function Decimal(n: nat): (s: string)
    ensures |s| >= 1 && AllDigits(s)
    ensures |s| > 1 ==> s[0] != '0'
  {
    if n < 10 then [DigitChar(n)] else Decimal(n / 10) + [DigitChar(n % 10)]
  }

  /**
    Number applied to a run of decimal digits, exact while the value stays
    below 2^53; the runs the program parses have at most three digits.
   */
  function ParseNat(s: string): nat
    requires AllDigits(s)
  {
    if |s| == 0 then 0 else 10 * ParseNat(s[..|s| - 1]) + DigitValue(s[|s| - 1])
  }

  lemma {:induction false} ParseDecimal(n: nat)
    ensures ParseNat(Decimal(n)) == n
  {
    if n >= 10 {
      ParseDecimal(n / 10);
      var s := Decimal(n);
      assert s[..|s| - 1] == Decimal(n / 10);
    }
  }

  /** The colour string the palette scan and the click handler build from a pixel. */
  function FormatRgb(c: Rgb): (s: string)
    requires NonNegative(c)
    ensures |s| >= 10 && s[..4] == "rgb(" && s[|s| - 1] == ')'
  {
    "rgb(" + Decimal(c.r) + "," + Decimal(c.g) + "," + Decimal(c.b) + ")"
  }

  /** Length of the run of digits at the start of s. */
  function RunLength(s: string): (n: nat)
    ensures n <= |s|
    ensures AllDigits(s[..n])
    ensures n == |s| || !IsDigit(s[n])
  {
    if |s| == 0 || !IsDigit(s[0]) then 0
    else
      var n := 1 + RunLength(s[1..]);
      assert s[..n] == [s[0]] + s[1..][..n - 1];
      n
  }

  /** The substrings matched by the global pattern \d+, left to right. */
  function Matches(s: string): (m: seq<string>)
    ensures forall i :: 0 <= i < |m| ==> |m[i]| >= 1 && AllDigits(m[i])
    decreases |s|
  {
    if |s| == 0 then []
    else if !IsDigit(s[0]) then Matches(s[1..])
    else
      var n := RunLength(s);
      [s[..n]] + Matches(s[n..])
  }

  /**
    match(/\d+/g).map(Number). On a string without digits match returns null
    and the map call throws; that is None. Otherwise there is one number per
    maximal run of digits, none of them negative, and a single run of at
    most fifteen digits (below 2^53, where Number is exact) gives its own
    value.
   */
  function Digits(s: string): (ds: Option<seq<int>>)
    ensures ds.None? <==> NoDigits(s)
    ensures ds.Some? ==> |ds.value| >= 1 && forall i :: 0 <= i < |ds.value| ==> ds.value[i] >= 0
    ensures 1 <= |s| <= 15 && AllDigits(s) ==> ds == Some([ParseNat(s)])
  {
    var m := Matches(s);
    MatchesEmpty(s);
    assert 1 <= |s| && AllDigits(s) ==> m == [s] by {
      if 1 <= |s| && AllDigits(s) {
        MatchesRun(s, []);
        assert s + [] == s;
      }
    }
    var ns := seq(|m|, i requires 0 <= i < |m| => ParseNat(m[i]));
    assert 1 <= |s| && AllDigits(s) ==> ns == [ParseNat(s)] by {
      if 1 <= |s| && AllDigits(s) {
        assert |ns| == 1 && ns[0] == ParseNat(s);
      }
    }
    if |m| == 0 then None else Some(ns)
  }

  /** The global pattern finds nothing exactly when the string has no digit. */
  lemma {:induction false} MatchesEmpty(s: string)
    ensures Matches(s) == [] <==> NoDigits(s)
    decreases |s|
  {
    if |s| > 0 && !IsDigit(s[0]) {
      MatchesEmpty(s[1..]);
      assert NoDigits(s) <==> NoDigits(s[1..]) by {
        if NoDigits(s[1..]) {
          assert forall i :: 1 <= i < |s| ==> s[i] == s[1..][i - 1];
        }
      }
    }
  }

  lemma {:induction false} MatchesSkip(a: string, t: string)
    requires NoDigits(a)
    ensures Matches(a + t) == Matches(t)
    decreases |a|
  {
    if |a| > 0 {
      assert (a + t)[1..] == a[1..] + t;
      MatchesSkip(a[1..], t);
    } else {
      assert a + t == t;
    }
  }

  lemma {:induction false} RunLengthOfRun(a: string, t: string)
    requires AllDigits(a)
    requires |t| == 0 || !IsDigit(t[0])
    ensures RunLength(a + t) == |a|
    decreases |a|
  {
    if |a| > 0 {
      assert (a + t)[1..] == a[1..] + t;
      RunLengthOfRun(a[1..], t);
    } else {
      assert a + t == t;
    }
  }

  lemma MatchesRun(a: string, t: string)
    requires |a| >= 1 && AllDigits(a)
    requires |t| == 0 || !IsDigit(t[0])
    ensures Matches(a + t) == [a] + Matches(t)
  {
    var s := a + t;
    RunLengthOfRun(a, t);
    var n := RunLength(s);
    assert s[..n] == a;
    assert s[n..] == t;
  }

  /** A separator without digits followed by a run of digits yields that run as the next match. */
  lemma MatchesField(sep: string, d: string, t: string)
    requires NoDigits(sep) && |d| >= 1 && AllDigits(d)
    requires |t| == 0 || !IsDigit(t[0])
    ensures Matches(sep + (d + t)) == [d] + Matches(t)
  {
    MatchesSkip(sep, d + t);
    MatchesRun(d, t);
  }

  /** The colour string regrouped from the right, one field at a time. */
  lemma FormatShape(c: Rgb)
    requires NonNegative(c)
    ensures FormatRgb(c) == "rgb(" + (Decimal(c.r) + ("," + (Decimal(c.g) + ("," + (Decimal(c.b) + ")")))))
  {
    var dr, dg, db := Decimal(c.r), Decimal(c.g), Decimal(c.b);
    var a := "rgb(" + dr + "," + dg + ",";
    assert FormatRgb(c) == a + (db + ")");
    assert a + (db + ")") == "rgb(" + dr + "," + (dg + ("," + (db + ")")));
    assert "rgb(" + dr + "," + (dg + ("," + (db + ")"))) == "rgb(" + (dr + ("," + (dg + ("," + (db + ")")))));
  }

  /** Three digit runs between digit-free separators are exactly the three matches. */
  lemma MatchesOfFields(p: string, d1: string, s1: string, d2: string, s2: string, d3: string, e: string)
    requires NoDigits(p) && NoDigits(s1) && NoDigits(s2) && NoDigits(e) && |s1| >= 1 && |s2| >= 1 && |e| >= 1
    requires |d1| >= 1 && AllDigits(d1) && |d2| >= 1 && AllDigits(d2) && |d3| >= 1 && AllDigits(d3)
    ensures Matches(p + (d1 + (s1 + (d2 + (s2 + (d3 + e)))))) == [d1, d2, d3]
  {
    var t2 := s2 + (d3 + e);
    var t1 := s1 + (d2 + t2);
    MatchesSkip(e, []);
    assert e + [] == e;
    MatchesField(s2, d3, e);
    MatchesField(s1, d2, t2);
    MatchesField(p, d1, t1);
  }

  lemma MatchesOfFormat(c: Rgb)
    requires NonNegative(c)
    ensures Matches(FormatRgb(c)) == [Decimal(c.r), Decimal(c.g), Decimal(c.b)]
  {
    FormatShape(c);
    assert NoDigits("rgb(") && NoDigits(",") && NoDigits(")");
    MatchesOfFields("rgb(", Decimal(c.r), ",", Decimal(c.g), ",", Decimal(c.b), ")");
  }

  /** Parsing the digits of a formatted colour returns exactly its three components. */
  lemma DigitsOfFormat(c: Rgb)
    requires NonNegative(c)
    ensures Digits(FormatRgb(c)) == Some([c.r, c.g, c.b])
  {
    MatchesOfFormat(c);
    ParseDecimal(c.r);
    ParseDecimal(c.g);
    ParseDecimal(c.b);
    var d := Digits(FormatRgb(c));
    assert d.Some? && |d.value| == 3;
    assert d.value[0] == c.r && d.value[1] == c.g && d.value[2] == c.b;
    assert d.value == [c.r, c.g, c.b];
  }

  /** Two colours with the same string are the same colour, so the string can serve as a key. */
  lemma FormatInjective(c1: Rgb, c2: Rgb)
    requires NonNegative(c1) && NonNegative(c2)
    ensures FormatRgb(c1) == FormatRgb(c2) <==> c1 == c2
  {
    DigitsOfFormat(c1);
    DigitsOfFormat(c2);
  }

}

=== FILE: image.dfy ===
/**
  RGBA pixel buffers as the canvas API exposes them: a flat sequence of
  bytes, four per pixel (red, green, blue, alpha), rows stored one after
  the other.
 */
module Image {

  /** A colour as the program compares it: red, green and blue, alpha ignored. */
  datatype Rgb = Rgb(r: int, g: int, b: int)

  predicate IsByte(v: int) {
    0 <= v <= 255
  }

  predicate Bytes(buf: seq<int>) {
    forall i :: 0 <= i < |buf| ==> IsByte(buf[i])
  }

  predicate ByteRgb(c: Rgb) {
    IsByte(c.r) && IsByte(c.g) && IsByte(c.b)
  }

  predicate InBounds(x: int, y: int, w: int, h: int) {
    0 <= x < w && 0 <= y < h
  }

  /** Row-major number of pixel (x, y) in an image of width w. */
  function PixelNumber(x: int, y: int, w: int): int {
    y * w + x
  }

  /** Offset of the red byte of pixel (x, y), as the click handler computes it. */
  function Index(x: int, y: int, w: int): int {
    (y * w + x) * 4
  }

  lemma PixelNumberInRange(x: int, y: int, w: int, h: int)
    requires InBounds(x, y, w, h)
    ensures 0 <= PixelNumber(x, y, w) < w * h
  {
    assert y * w <= (h - 1) * w by {
      assert (h - 1) * w - y * w == (h - 1 - y) * w;
    }
    assert (h - 1) * w + w == h * w;
  }

  /** The click index addresses four bytes of the buffer that all belong to pixel (x, y). */
  lemma IndexInRange(x: int, y: int, w: int, h: int)
    requires InBounds(x, y, w, h)
    ensures Index(x, y, w) % 4 == 0
    ensures 0 <= Index(x, y, w) && Index(x, y, w) + 3 < 4 * (w * h)
    ensures Index(x, y, w) / 4 == PixelNumber(x, y, w)
  {
    PixelNumberInRange(x, y, w, h);
  }

  /** Distinct pixels have distinct row-major numbers, hence distinct click indices. */
  lemma PixelNumberInjective(x1: int, y1: int, x2: int, y2: int, w: int, h: int)
    requires InBounds(x1, y1, w, h) && InBounds(x2, y2, w, h)
    ensures PixelNumber(x1, y1, w) == PixelNumber(x2, y2, w) <==> x1 == x2 && y1 == y2
    ensures Index(x1, y1, w) == Index(x2, y2, w) <==> x1 == x2 && y1 == y2
  {
    if y1 < y2 {
      RowsApart(x1, y1, x2, y2, w);
    } else if y2 < y1 {
      RowsApart(x2, y2, x1, y1, w);
    }
  }

  lemma RowsApart(x1: int, y1: int, x2: int, y2: int, w: int)
    requires 0 <= x1 < w && 0 <= x2 < w && y1 < y2
    ensures PixelNumber(x1, y1, w) < PixelNumber(x2, y2, w)
  {
    var d := y2 - y1;
    assert d >= 1;
    assert y2 * w == y1 * w + d * w;
    assert d * w >= w;
  }

  /** The RGB of pixel (x, y). */
  function PixelRgb(buf: seq<int>, w: int, h: int, x: int, y: int): (c: Rgb)
    requires |buf| == 4 * (w * h) && InBounds(x, y, w, h)
    ensures Bytes(buf) ==> ByteRgb(c)
  {
    IndexInRange(x, y, w, h);
    var i := Index(x, y, w);
    Rgb(buf[i], buf[i + 1], buf[i + 2])
  }

  /** The colours of all pixels, in row-major order. */
  function Pixels(buf: seq<int>): (px: seq<Rgb>)
    requires |buf| % 4 == 0
    ensures |px| == |buf| / 4
    ensures forall p :: 0 <= p < |px| ==> px[p] == Rgb(buf[4 * p], buf[4 * p + 1], buf[4 * p + 2])
    ensures Bytes(buf) ==> forall p :: 0 <= p < |px| ==> ByteRgb(px[p])
  {
    seq(|buf| / 4, p requires 0 <= p < |buf| / 4 => Rgb(buf[4 * p], buf[4 * p + 1], buf[4 * p + 2]))
  }

  lemma PixelRgbIsPixel(buf: seq<int>, w: int, h: int, x: int, y: int)
    requires |buf| == 4 * (w * h) && InBounds(x, y, w, h)
    ensures PixelNumber(x, y, w) < |Pixels(buf)|
    ensures PixelRgb(buf, w, h, x, y) == Pixels(buf)[PixelNumber(x, y, w)]
  {
    IndexInRange(x, y, w, h);
    var p := PixelNumber(x, y, w);
    assert p < |buf| / 4;
    var px := Pixels(buf);
    assert px[p] == Rgb(buf[4 * p], buf[4 * p + 1], buf[4 * p + 2]);
    assert Index(x, y, w) == 4 * p;
  }

  /**
    Whether the click index (y·w+x)·4 addresses a pixel of a w-by-h buffer.
    It does for every point of the image, and also for a point past the end
    of a row whose row-major number still falls inside the buffer.
   */
  predicate ReadsPixel(x: int, y: int, w: int, h: int) {
    0 <= PixelNumber(x, y, w) < w * h
  }

  /**
    The colour the click handler reads at the click index: pixel number y·w+x
    of the buffer. For a point of the image that is the pixel itself; for a
    point past the end of a row it is a pixel of a neighbouring row.
   */
  function ClickColour(buf: seq<int>, w: int, h: int, x: int, y: int): (c: Rgb)
    requires |buf| == 4 * (w * h) && ReadsPixel(x, y, w, h)
    ensures PixelNumber(x, y, w) < |Pixels(buf)| && c == Pixels(buf)[PixelNumber(x, y, w)]
    ensures InBounds(x, y, w, h) ==> c == PixelRgb(buf, w, h, x, y)
    ensures Bytes(buf) ==> ByteRgb(c)
  {
    var p := PixelNumber(x, y, w);
    var i := Index(x, y, w);
    assert i == 4 * p;
    var c := Rgb(buf[i], buf[i + 1], buf[i + 2]);
    assert InBounds(x, y, w, h) ==> c == PixelRgb(buf, w, h, x, y) by {
      if InBounds(x, y, w, h) {
        PixelRgbIsPixel(buf, w, h, x, y);
      }
    }
    c
  }

  /** A CSS rgb() component is clamped into the byte range. */
  function Clamp(v: int): (r: int)
    ensures IsByte(r)
    ensures IsByte(v) ==> r == v
    ensures v < 0 ==> r == 0
    ensures v > 255 ==> r == 255
  {
    if v < 0 then 0 else if v > 255 then 255 else v
  }

  /** Byte number ch (0 red, 1 green, 2 blue, 3 alpha) of an opaque fill with c. */
  function Channel(c: Rgb, ch: int): int {
    if ch == 0 then Clamp(c.r)
    else if ch == 1 then Clamp(c.g)
    else if ch == 2 then Clamp(c.b)
    else 255
  }

  /** Whether byte k of the buffer belongs to pixel (x, y) of a w-by-h image. */
  predicate Covers(x: int, y: int, w: int, h: int, k: int) {
    InBounds(x, y, w, h) && k / 4 == PixelNumber(x, y, w)
  }

  /**
    A 1-by-1 opaque fill of pixel (x, y) with colour c; a fill outside the
    image draws nothing.
   */
  function Fill(buf: seq<int>, w: int, h: int, x: int, y: int, c: Rgb): (r: seq<int>)
    requires |buf| == 4 * (w * h)
    ensures |r| == |buf|
    ensures Bytes(buf) ==> Bytes(r)
    ensures !InBounds(x, y, w, h) ==> r == buf
    ensures InBounds(x, y, w, h) ==>
              var i := Index(x, y, w);
              0 <= i && i + 3 < |r|
              && r[i] == Clamp(c.r) && r[i + 1] == Clamp(c.g) && r[i + 2] == Clamp(c.b) && r[i + 3] == 255
              && forall k :: 0 <= k < |buf| && !(i <= k < i + 4) ==> r[k] == buf[k]
  {
    if InBounds(x, y, w, h) then
      IndexInRange(x, y, w, h);
      seq(|buf|, k requires 0 <= k < |buf| => if k / 4 == PixelNumber(x, y, w) then Channel(c, k % 4) else buf[k])
    else
      buf
  }

  lemma FillAt(buf: seq<int>, w: int, h: int, x: int, y: int, c: Rgb, k: int)
    requires |buf| == 4 * (w * h) && 0 <= k < |buf|
    ensures Fill(buf, w, h, x, y, c)[k] == if Covers(x, y, w, h, k) then Channel(c, k % 4) else buf[k]
  {
  }

}

=== FILE: options.dfy ===
/** The optional value used for "nothing selected", "nothing stored" and "key absent". */
module Options {

  datatype Option<+T> = None | Some(value: T)

}

=== FILE: palette.dfy ===
/**
  Palette extraction: the pixels are scanned in row-major order, each
  pixel's colour string is added to an insertion-ordered set, and the
  first twelve distinct colours become the swatches.
 */
module PaletteExtractor {
  import opened Image
  import opened ColourText

  /** Number of swatches shown. */
  const PaletteLimit := 12

  predicate NoDuplicates(s: seq<Rgb>) {
    forall i, j :: 0 <= i < j < |s| ==> s[i] != s[j]
  }

  /** Position of the first occurrence of x in s. */
  function FirstIndex(s: seq<Rgb>, x: Rgb): (i: nat)
    requires x in s
    ensures i < |s| && s[i] == x
    ensures forall j :: 0 <= j < i ==> s[j] != x
  {
    if s[0] == x then 0 else 1 + FirstIndex(s[1..], x)
  }

  /** The elements of s without repetitions, each kept at its first occurrence. */
  function Dedup(s: seq<Rgb>): (d: seq<Rgb>)
    ensures NoDuplicates(d)
    ensures forall x :: x in d <==> x in s
  {
    if |s| == 0 then []
    else
      var d := Dedup(s[..|s| - 1]);
      var x := s[|s| - 1];
      assert s == s[..|s| - 1] + [x];
      if x in d then d else d + [x]
  }

  /** The set of colours occurring in s. */
  function ColourSet(s: seq<Rgb>): set<Rgb> {
    set x | x in s
  }

  lemma FirstIndexInPrefix(s: seq<Rgb>, n: nat, x: Rgb)
    requires n <= |s| && x in s[..n]
    ensures x in s
    ensures FirstIndex(s, x) == FirstIndex(s[..n], x)
  {
    var i := FirstIndex(s[..n], x);
    assert s[i] == x;
  }

  /** Dedup lists its elements in the order of their first occurrences. */
  lemma {:induction false} DedupFirstSeen(s: seq<Rgb>)
    ensures forall i, j :: 0 <= i < j < |Dedup(s)| ==> FirstIndex(s, Dedup(s)[i]) < FirstIndex(s, Dedup(s)[j])
  {
    if |s| > 0 {
      var n := |s| - 1;
      var s' := s[..n];
      var d' := Dedup(s');
      DedupFirstSeen(s');
      var d := Dedup(s);
      forall i, j | 0 <= i < j < |d|
        ensures FirstIndex(s, d[i]) < FirstIndex(s, d[j])
      {
        FirstIndexInPrefix(s, n, d[i]);
        if j < |d'| {
          FirstIndexInPrefix(s, n, d[j]);
        } else {
          assert d[j] == s[n] && d[j] !in s';
        }
      }
    }
  }

  /** Deduplicating a prefix gives a prefix of the deduplicated whole. */
  lemma {:induction false} DedupPrefix(s: seq<Rgb>, n: nat)
    requires n <= |s|
    ensures Dedup(s[..n]) <= Dedup(s)
  {
    if n < |s| {
      var s' := s[..|s| - 1];
      assert s'[..n] == s[..n];
      DedupPrefix(s', n);
    } else {
      assert s[..n] == s;
    }
  }

  /**
    A value's place in Dedup(s) is the number of distinct values seen before
    its first occurrence.
   */
  lemma DedupPosition(s: seq<Rgb>, x: Rgb)
    requires x in s
    ensures |Dedup(s[..FirstIndex(s, x)])| < |Dedup(s)|
    ensures Dedup(s)[|Dedup(s[..FirstIndex(s, x)])|] == x
  {
    var f := FirstIndex(s, x);
    var t := s[..f + 1];
    assert t[..f] == s[..f];
    assert t[..|t| - 1] == s[..f];
    assert x !in s[..f];
    assert Dedup(t) == Dedup(s[..f]) + [x];
    DedupPrefix(s, f + 1);
  }

  /** A sequence without repetitions has as many elements as its set. */
  lemma {:induction false} NoDuplicatesSize(d: seq<Rgb>)
    requires NoDuplicates(d)
    ensures |ColourSet(d)| == |d|
  {
    if |d| > 0 {
      var d' := d[..|d| - 1];
      NoDuplicatesSize(d');
      assert ColourSet(d) == ColourSet(d') + {d[|d| - 1]};
      assert d[|d| - 1] !in ColourSet(d');
    } else {
      assert ColourSet(d) == {};
    }
  }

  /** Dedup keeps exactly one copy of every distinct value. */
  lemma DedupSize(s: seq<Rgb>)
    ensures |Dedup(s)| == |ColourSet(s)|
  {
    NoDuplicatesSize(Dedup(s));
    assert ColourSet(Dedup(s)) == ColourSet(s);
  }

  function Take(s: seq<Rgb>, n: nat): (r: seq<Rgb>)
    ensures r <= s
    ensures |r| == if |s| <= n then |s| else n
  {
    if |s| <= n then s else s[..n]
  }

  /**
    The swatch colours for a buffer: at most twelve, without repetitions,
    each the colour of some pixel, in the order in which they first occur in
    the row-major scan; a pixel colour is missing only when twelve colours
    were already taken.
   */
  function Palette(buf: seq<int>): (p: seq<Rgb>)
    requires |buf| % 4 == 0
    ensures |p| <= PaletteLimit
    ensures NoDuplicates(p)
    ensures forall c :: c in p ==> c in Pixels(buf)
    ensures forall i, j :: 0 <= i < j < |p| ==> FirstIndex(Pixels(buf), p[i]) < FirstIndex(Pixels(buf), p[j])
    ensures forall c :: c in Pixels(buf) ==> c in p || |p| == PaletteLimit
  {
    var d := Dedup(Pixels(buf));
    DedupFirstSeen(Pixels(buf));
    Take(d, PaletteLimit)
  }

  /** A colour is a swatch exactly when fewer than twelve distinct colours occur before it. */
  lemma PaletteMembership(buf: seq<int>, c: Rgb)
    requires |buf| % 4 == 0
    ensures c in Palette(buf) <==>
              c in Pixels(buf) && |ColourSet(Pixels(buf)[..FirstIndex(Pixels(buf), c)])| < PaletteLimit
  {
    var px := Pixels(buf);
    var d := Dedup(px);
    if c in px {
      DedupPosition(px, c);
      var m := |Dedup(px[..FirstIndex(px, c)])|;
      DedupSize(px[..FirstIndex(px, c)]);
      var p := Palette(buf);
      if m < PaletteLimit {
        assert p[m] == c;
      } else {
        forall i | 0 <= i < |p|
          ensures p[i] != c
        {
          assert p[i] == d[i] && i != m;
        }
      }
    }
  }

  /** With at most twelve distinct colours in the image, every one of them is a swatch. */
  lemma PaletteComplete(buf: seq<int>)
    requires |buf| % 4 == 0
    requires |ColourSet(Pixels(buf))| <= PaletteLimit
    ensures forall c :: c in Pixels(buf) <==> c in Palette(buf)
  {
    DedupSize(Pixels(buf));
  }

  predicate AllNonNegative(colours: seq<Rgb>) {
    forall c :: c in colours ==> NonNegative(c)
  }

  /** The colour strings of a list of colours, as the scan's set holds them. */
  function SeenStrings(colours: seq<Rgb>): set<string>
    requires AllNonNegative(colours)
  {
    set c | c in colours :: FormatRgb(c)
  }

  /** The set of colour strings of a list of colours holds a colour's string exactly when the list holds it. */
  lemma SeenKey(colours: seq<Rgb>, c: Rgb)
    requires NonNegative(c) && AllNonNegative(colours)
    ensures FormatRgb(c) in SeenStrings(colours) <==> c in colours
  {
    forall c' | c' in colours
      ensures FormatRgb(c') == FormatRgb(c) <==> c' == c
    {
      FormatInjective(c', c);
    }
  }

  /** What the scan holds after the first n pixels: the distinct colours in order and their strings. */
  predicate Scanned(px: seq<Rgb>, n: int, colours: seq<Rgb>, seen: set<string>)
    requires 0 <= n <= |px|
  {
    && colours == Dedup(px[..n])
    && AllNonNegative(colours)
    && seen == SeenStrings(colours)
  }

  /** One iteration of the scan keeps the colour list and the string set in step. */
  lemma ScanIteration(px: seq<Rgb>, n: int, colours: seq<Rgb>, seen: set<string>)
    requires 0 <= n < |px| && NonNegative(px[n])
    requires Scanned(px, n, colours, seen)
    ensures FormatRgb(px[n]) in seen ==> Scanned(px, n + 1, colours, seen)
    ensures FormatRgb(px[n]) !in seen ==> Scanned(px, n + 1, colours + [px[n]], seen + {FormatRgb(px[n])})
  {
    var c := px[n];
    SeenKey(colours, c);
    var t := px[..n + 1];
    assert t[..|t| - 1] == px[..n];
    if c !in colours {
      assert SeenStrings(colours + [c]) == seen + {FormatRgb(c)};
    }
  }

  /**
    The scan loop: the colour string of every pixel goes into a set, and a
    colour is appended to the insertion order when its string is new.
   */
  method ScanColours(buf: seq<int>) returns (colours: seq<Rgb>)
    requires |buf| % 4 == 0 && Bytes(buf)
    ensures colours == Dedup(Pixels(buf))
  {
    var px := Pixels(buf);
    var seen: set<string> := {};
    colours := [];
    var n := 0;
    while n < |px|
      invariant 0 <= n <= |px|
      invariant Scanned(px, n, colours, seen)
    {
      var c := px[n];
      var key := FormatRgb(c);
      ScanIteration(px, n, colours, seen);
      if key !in seen {
        seen := seen + {key};
        colours := colours + [c];
      }
      n := n + 1;
    }
    assert px[..n] == px;
  }

  /** The swatches as the program builds them: the first twelve distinct colours of the scan. */
  method ExtractPalette(buf: seq<int>) returns (palette: seq<Rgb>)
    requires |buf| % 4 == 0 && Bytes(buf)
    ensures palette == Palette(buf)
  {
    var colours := ScanColours(buf);
    palette := if |colours| <= PaletteLimit then colours else colours[..PaletteLimit];
  }

}

=== FILE: posterizer.dfy ===
/**
  The posterize step: every red, green and blue byte v is replaced by
  floor(v / (256 / L)) * (256 / L) for L colour levels, and the product is
  stored back into a clamped byte array, which rounds it to the nearest
  integer. Arithmetic is exact (rational); the value stored is therefore a
  function of the bucket number k = floor(v * L / 256) alone.
 */
module Posterizer {
  import opened Image

  lemma MulNonNegative(a: int, b: int)
    requires a >= 0 && b >= 0
    ensures a * b >= 0
  {
  }

  lemma MulMonotone(d: int, x: int, y: int)
    requires d >= 0 && x <= y
    ensures d * x <= d * y
  {
    MulNonNegative(d, y - x);
    assert d * y - d * x == d * (y - x);
  }

  /** Euclidean division is pinned down by the interval its dividend lies in. */
  lemma DivBetween(a: int, d: int, q: int)
    requires d > 0 && d * q <= a < d * q + d
    ensures a / d == q
  {
    var q', r' := a / d, a % d;
    assert a == d * q' + r' && 0 <= r' < d;
    if q' < q {
      MulMonotone(d, q', q - 1);
    } else if q' > q {
      MulMonotone(d, q + 1, q');
    }
  }

  /** a <= b implies a / d <= b / d. */
  lemma DivMonotone(a: int, b: int, d: int)
    requires d > 0 && a <= b
    ensures a / d <= b / d
  {
    var qa, qb := a / d, b / d;
    assert a == d * qa + a % d;
    assert b == d * qb + b % d;
    if qa > qb {
      MulMonotone(d, qb + 1, qa);
    }
  }

  /**
    The ToUint8Clamp conversion of ECMA-262 (section 7.1.12) applied to the
    exact rational n / d: values at or below 0 give 0, values at or above 255
    give 255, anything else is rounded to the nearest integer, a tie going to
    the even neighbour.
   */
  function ToUint8Clamp(n: int, d: int): (r: int)
    requires d > 0
    ensures IsByte(r)
    ensures n <= 0 ==> r == 0
    ensures n >= 255 * d ==> r == 255
    ensures 0 < n < 255 * d ==> -d <= 2 * (n - r * d) <= d
    ensures 0 < n < 255 * d && 2 * (n - (n / d) * d) == d ==> r % 2 == 0
  {
    if n <= 0 then 0
    else if n >= 255 * d then 255
    else
      var f := n / d;
      FloorInside(n, d);
      var twice := 2 * (n - f * d);
      if twice < d then f
      else if twice > d then f + 1
      else if f % 2 == 0 then f
      else f + 1
  }

  /** Inside the clamping bounds the floor of n / d is a byte below 255, and one step up adds d. */
  lemma FloorInside(n: int, d: int)
    requires d > 0 && 0 < n < 255 * d
    ensures 0 <= n / d < 255
    ensures 0 <= n - (n / d) * d < d
    ensures (n / d + 1) * d == (n / d) * d + d
  {
    var f := n / d;
    assert n == d * f + n % d;
    if f < 0 {
      MulMonotone(d, f, -1);
    } else if f >= 255 {
      MulMonotone(d, 255, f);
    }
  }

  /** Bucket of channel value v: floor(v / (256 / L)), computed exactly. */
  function Bucket(v: int, L: int): int
    requires L >= 1
  {
    v * L / 256
  }

  /** Bucket k stored as a byte: k * 256 / L rounded half up. */
  function Level(k: int, L: int): int
    requires L >= 1
  {
    (512 * k + L) / (2 * L)
  }

  function Pow2(e: nat): (p: nat)
    ensures p >= 1
  {
    if e == 0 then 1 else 2 * Pow2(e - 1)
  }

  /**
    For L below a power of two P, the fraction P * k / L never ends in
    exactly one half: the power of two in L is too small to absorb P.
   */
  lemma {:induction false} NoHalfway(e: nat, k: int, f: int, L: int)
    requires 1 <= L < Pow2(e)
    ensures Pow2(e) * k != (2 * f + 1) * L
  {
    assert e >= 1;
    var P := Pow2(e);
    var Q := Pow2(e - 1);
    assert P * k == 2 * (Q * k);
    if L % 2 == 1 {
      var m := L / 2;
      assert L == 2 * m + 1;
      assert (2 * f + 1) * L == 2 * (2 * f * m + f + m) + 1;
    } else {
      var M := L / 2;
      assert L == 2 * M;
      assert 1 <= M < Q;
      assert (2 * f + 1) * L == 2 * ((2 * f + 1) * M);
      NoHalfway(e - 1, k, f, M);
    }
  }

  /**
    Rounding k * 256 / L never meets a tie when L <= 256, so the byte the
    clamped array stores for bucket k is Level(k, L).
   */
  lemma StoredLevel(k: int, L: int)
    requires 1 <= L <= 256 && 0 <= k < L
    ensures ToUint8Clamp(k * 256, L) == Level(k, L)
  {
    var n := k * 256;
    if k == 0 {
      DivBetween(L, 2 * L, 0);
    } else if n >= 255 * L {
      TopBucket(k, L);
      DivBetween(512 * 255 + 256, 512, 255);
    } else {
      StoredLevelInside(k, L);
    }
  }

  /** Only bucket 255 of 256 levels reaches the clamping bound 255. */
  lemma TopBucket(k: int, L: int)
    requires 1 <= L <= 256 && 0 <= k < L && k * 256 >= 255 * L
    ensures L == 256 && k == 255
  {
    MulMonotone(256, k, L - 1);
  }

  lemma StoredLevelInside(k: int, L: int)
    requires 1 <= L <= 256 && 0 < k < L && k * 256 < 255 * L
    ensures ToUint8Clamp(k * 256, L) == Level(k, L)
  {
    var r := ToUint8Clamp(k * 256, L);
    var m := r * L;
    assert -L <= 2 * (k * 256 - m) <= L;
    Pow2Nine();
    NoHalfway(9, k, r, L);
    HalfStep(r, L);
    DivBetween(512 * k + L, 2 * L, r);
  }

  lemma Pow2Nine()
    ensures Pow2(9) == 512
  {
    assert Pow2(1) == 2 && Pow2(2) == 4 && Pow2(3) == 8 && Pow2(4) == 16;
    assert Pow2(5) == 32 && Pow2(6) == 64 && Pow2(7) == 128 && Pow2(8) == 256;
  }

  lemma HalfStep(r: int, L: int)
    ensures (2 * r + 1) * L == 2 * (r * L) + L
    ensures (2 * L) * r == 2 * (r * L)
  {
  }

  /** Level(k, L) does not exceed v whenever the bucket k is at most v * L / 256. */
  lemma LevelBelow(k: int, v: int, L: int)
    requires 1 <= L && 0 <= k && 256 * k <= v * L
    ensures Level(k, L) <= v
  {
    assert 512 * k + L < 2 * L * (v + 1);
    DivMonotone(512 * k + L, 2 * L * (v + 1) - 1, 2 * L);
    DivBetween(2 * L * (v + 1) - 1, 2 * L, v);
  }

  /**
    Posterized value of one channel byte v with L levels: the stored byte
    lies in bucket k = floor(v * L / 256) < L, equals Level(k, L), and never
    exceeds v.
   */
  function Quantize(v: int, L: int): (r: int)
    requires 1 <= L <= 256 && IsByte(v)
    ensures 0 <= Bucket(v, L) < L
    ensures r == Level(Bucket(v, L), L)
    ensures 0 <= r <= v
  {
    var k := Bucket(v, L);
    BucketRange(v, L);
    StoredLevel(k, L);
    LevelBelow(k, v, L);
    ToUint8Clamp(k * 256, L)
  }

  lemma BucketRange(v: int, L: int)
    requires 1 <= L <= 256 && IsByte(v)
    ensures 0 <= Bucket(v, L) < L && 256 * Bucket(v, L) <= v * L
  {
    MulMonotone(L, v, 255);
    MulNonNegative(L, v);
    DivBetween(v * L, 256, Bucket(v, L));
  }

  /** A larger input byte never posterizes to a smaller output byte. */
  lemma QuantizeMonotone(v1: int, v2: int, L: int)
    requires 1 <= L <= 256 && IsByte(v1) && IsByte(v2) && v1 <= v2
    ensures Quantize(v1, L) <= Quantize(v2, L)
  {
    DivMonotone(v1 * L, v2 * L, 256);
    var k1, k2 := Bucket(v1, L), Bucket(v2, L);
    DivMonotone(512 * k1 + L, 512 * k2 + L, 2 * L);
  }

  /** The bytes buckets 0 .. n-1 are stored as. */
  function LevelSet(n: int, L: int): set<int>
    requires L >= 1
  {
    set k | 0 <= k < n :: Level(k, L)
  }

  lemma {:induction false} LevelSetSize(n: nat, L: int)
    requires L >= 1
    ensures |LevelSet(n, L)| <= n
  {
    if n > 0 {
      LevelSetSize(n - 1, L);
      assert LevelSet(n, L) == LevelSet(n - 1, L) + {Level(n - 1, L)};
    } else {
      assert LevelSet(n, L) == {};
    }
  }

  /** A channel takes at most L distinct values after posterizing with L levels. */
  lemma QuantizeAtMostLValues(L: int)
    requires 1 <= L <= 256
    ensures (set v | 0 <= v < 256 :: Quantize(v, L)) <= LevelSet(L, L)
    ensures |LevelSet(L, L)| <= L
  {
    LevelSetSize(L, L);
    forall v | 0 <= v < 256
      ensures Quantize(v, L) in LevelSet(L, L)
    {
      QuantizeInLevelSet(v, L);
    }
  }

  lemma QuantizeInLevelSet(v: int, L: int)
    requires 1 <= L <= 256 && IsByte(v)
    ensures Quantize(v, L) in LevelSet(L, L)
  {
    var k := Bucket(v, L);
    assert 0 <= k < L && Quantize(v, L) == Level(k, L);
  }

  /**
    When L divides 256 the step 256 / L is an integer and posterizing
    rounds a byte down to a multiple of the step.
   */
  lemma QuantizeWhenDivides(v: int, L: int)
    requires 1 <= L <= 256 && 256 % L == 0 && IsByte(v)
    ensures Quantize(v, L) == v - v % (256 / L)
  {
    var s := 256 / L;
    var q := v / s;
    StepSplit(v, L, s, q);
    DivBetween(v * L, 256, q);
    assert Bucket(v, L) == q;
    DivBetween(512 * q + L, 2 * L, s * q);
    assert Level(q, L) == s * q;
  }

  /** With step s = 256 / L, v lies in bucket v / s, whose level is s * (v / s). */
  lemma StepSplit(v: int, L: int, s: int, q: int)
    requires 1 <= L <= 256 && 256 % L == 0 && IsByte(v) && s == 256 / L && q == v / s
    ensures 256 * q <= v * L < 256 * q + 256
    ensures 2 * L * (s * q) <= 512 * q + L < 2 * L * (s * q) + 2 * L
    ensures s * q == v - v % s
  {
    var m := v % s;
    assert s * L == 256;
    assert v == s * q + m && 0 <= m < s;
    StepProducts(s, L, q, m);
    MulMonotone(L, m, s - 1);
  }

  /** The products StepSplit needs, with the step s and the remainder m as plain unknowns. */
  lemma StepProducts(s: int, L: int, q: int, m: int)
    requires s * L == 256
    ensures (s * q + m) * L == 256 * q + L * m
    ensures L * (s - 1) == 256 - L
    ensures 2 * L * (s * q) == 512 * q
  {
    assert (s * q) * L == q * (s * L);
    assert 2 * L * (s * q) == 2 * q * (s * L);
  }

  /** Posterizing is idempotent on a channel byte when L divides 256. */
  lemma QuantizeIdempotentWhenDivides(v: int, L: int)
    requires 1 <= L <= 256 && 256 % L == 0 && IsByte(v)
    ensures Quantize(Quantize(v, L), L) == Quantize(v, L)
  {
    var s := 256 / L;
    QuantizeWhenDivides(v, L);
    var u := Quantize(v, L);
    QuantizeWhenDivides(u, L);
    StepMultiple(v, s);
  }

  /** Rounding down to a multiple of s is idempotent. */
  lemma StepMultiple(v: int, s: int)
    requires s > 0
    ensures (v - v % s) % s == 0
  {
    var q := v / s;
    var m := s * q;
    assert v == m + v % s;
    assert v - v % s == m;
    DivBetween(m, s, q);
    assert m % s == m - s * (m / s);
  }

  /** With six levels posterizing is not idempotent: 255 goes to 213, and 213 to 171. */
  lemma QuantizeNotIdempotent()
    ensures Quantize(255, 6) == 213
    ensures Quantize(213, 6) == 171
    ensures Quantize(Quantize(255, 6), 6) != Quantize(255, 6)
  {
    assert Bucket(255, 6) == 5;
    DivBetween(512 * 5 + 6, 12, 213);
    assert Bucket(213, 6) == 4;
    DivBetween(512 * 4 + 6, 12, 171);
  }

  /**
    The posterize loop over a whole RGBA buffer: bytes 0, 1 and 2 of every
    pixel are quantized, the alpha byte is left alone.
   */
  function Posterize(buf: seq<int>, L: int): (r: seq<int>)
    requires 1 <= L <= 256 && Bytes(buf)
    ensures |r| == |buf|
    ensures Bytes(r)
    ensures forall i :: 0 <= i < |buf| && i % 4 == 3 ==> r[i] == buf[i]
    ensures forall i :: 0 <= i < |buf| && i % 4 != 3 ==> r[i] == Quantize(buf[i], L) && r[i] <= buf[i]
  {
    seq(|buf|, i requires 0 <= i < |buf| => if i % 4 == 3 then buf[i] else Quantize(buf[i], L))
  }

  /** Posterizing a whole buffer twice with the same L changes nothing more when L divides 256. */
  lemma PosterizeIdempotentWhenDivides(buf: seq<int>, L: int)
    requires 1 <= L <= 256 && 256 % L == 0 && Bytes(buf)
    ensures Posterize(Posterize(buf, L), L) == Posterize(buf, L)
  {
    var once := Posterize(buf, L);
    var twice := Posterize(once, L);
    forall i | 0 <= i < |buf|
      ensures twice[i] == once[i]
    {
      if i % 4 != 3 {
        QuantizeIdempotentWhenDivides(buf[i], L);
      }
    }
  }

  /** A one-pixel white buffer shows that posterizing with six levels is not idempotent. */
  lemma PosterizeNotIdempotent()
    ensures Posterize([255, 255, 255, 255], 6) == [213, 213, 213, 255]
    ensures Posterize(Posterize([255, 255, 255, 255], 6), 6) == [171, 171, 171, 255]
  {
    QuantizeNotIdempotent();
    var once := Posterize([255, 255, 255, 255], 6);
    assert once == [213, 213, 213, 255];
    var twice := Posterize(once, 6);
    assert twice == [171, 171, 171, 255];
  }

}

=== FILE: progress.dfy ===
/**
  The progress object: for every target colour (the colour the work buffer
  holds at the clicked pixel) the list of paint events recorded under it.
  Keys keep their insertion order, which is also the order a redraw visits
  them in; within a key events are replayed in list order.
 */
module Progress {
  import opened Options
  import opened Image

  /** One recorded paint: the pixel and the colour it was given. */
  datatype Event = Event(x: int, y: int, colour: Rgb)

  /** The events recorded under one target colour. */
  datatype Entry = Entry(key: Rgb, events: seq<Event>)

  /** Keys in insertion order, each with its event list. */
  type Record = seq<Entry>

  predicate DistinctKeys(p: Record) {
    forall i, j :: 0 <= i < j < |p| ==> p[i].key != p[j].key
  }

  function Keys(p: Record): (ks: seq<Rgb>)
    ensures |ks| == |p|
    ensures forall i :: 0 <= i < |p| ==> ks[i] == p[i].key
  {
    seq(|p|, i requires 0 <= i < |p| => p[i].key)
  }

  /** Where key k sits in the record, if anywhere. */
  function Find(p: Record, k: Rgb): (r: Option<nat>)
    ensures r.Some? ==> r.value < |p| && p[r.value].key == k
    ensures r.None? <==> k !in Keys(p)
  {
    if |p| == 0 then None
    else if p[0].key == k then Some(0)
    else
      match Find(p[1..], k)
      case None => None
      case Some(i) => Some(i + 1)
  }

  lemma FindUnique(p: Record, k: Rgb, i: int)
    requires DistinctKeys(p) && 0 <= i < |p| && p[i].key == k
    ensures Find(p, k) == Some(i)
  {
    assert k in Keys(p);
  }

  /** The list stored under key k; a missing key reads as no events. */
  function EventsOf(p: Record, k: Rgb): seq<Event> {
    match Find(p, k)
    case None => []
    case Some(i) => p[i].events
  }

  /** All events in redraw order: key by key, each key's list in order. */
  function Flatten(p: Record): seq<Event> {
    if |p| == 0 then [] else p[0].events + Flatten(p[1..])
  }

  lemma {:induction false} FlattenAppend(a: Record, b: Record)
    ensures Flatten(a + b) == Flatten(a) + Flatten(b)
  {
    if |a| > 0 {
      assert (a + b)[1..] == a[1..] + b;
      FlattenAppend(a[1..], b);
    } else {
      assert a + b == b;
    }
  }

  lemma {:induction false} FlattenMember(p: Record, e: Event)
    requires e in Flatten(p)
    ensures exists i :: 0 <= i < |p| && e in p[i].events
  {
    if e !in p[0].events {
      FlattenMember(p[1..], e);
      var i :| 0 <= i < |p[1..]| && e in p[1..][i].events;
      assert e in p[i + 1].events;
    }
  }

  /**
    The first click on a target colour creates its empty list, appended as
    the last key; later clicks find it already there. No list changes.
   */
  function EnsureKey(p: Record, k: Rgb): (r: Record)
    requires DistinctKeys(p)
    ensures DistinctKeys(r)
    ensures Find(r, k).Some?
    ensures Keys(r) == if k in Keys(p) then Keys(p) else Keys(p) + [k]
    ensures forall k' :: EventsOf(r, k') == EventsOf(p, k')
    ensures Flatten(r) == Flatten(p)
  {
    if Find(p, k).Some? then p
    else
      var r := p + [Entry(k, [])];
      assert Keys(r) == Keys(p) + [k];
      forall k' ensures EventsOf(r, k') == EventsOf(p, k') {
        if k' == k {
          FindUnique(r, k, |p|);
        } else if Find(p, k').Some? {
          FindUnique(r, k', Find(p, k').value);
        }
      }
      FlattenAppend(p, [Entry(k, [])]);
      assert Flatten([Entry(k, [])]) == [];
      r
  }

  /** The event is appended to the list under key k; every other list and the key order stay. */
  function Push(p: Record, k: Rgb, e: Event): (r: Record)
    requires DistinctKeys(p) && Find(p, k).Some?
    ensures DistinctKeys(r)
    ensures Keys(r) == Keys(p)
    ensures EventsOf(r, k) == EventsOf(p, k) + [e]
    ensures forall k' :: k' != k ==> EventsOf(r, k') == EventsOf(p, k')
  {
    var i := Find(p, k).value;
    var r := p[i := Entry(k, p[i].events + [e])];
    assert Keys(r) == Keys(p);
    FindUnique(r, k, i);
    forall k' | k' != k
      ensures EventsOf(r, k') == EventsOf(p, k')
    {
      if Find(p, k').Some? {
        FindUnique(r, k', Find(p, k').value);
      }
    }
    r
  }

  /** The record with e inserted right after the events of key k, split around it. */
  lemma FlattenPush(p: Record, k: Rgb, e: Event)
    requires DistinctKeys(p) && Find(p, k).Some?
    ensures var i := Find(p, k).value;
            var before := Flatten(p[..i]) + p[i].events;
            var after := Flatten(p[i + 1..]);
            Flatten(p) == before + after && Flatten(Push(p, k, e)) == before + [e] + after
  {
    var i := Find(p, k).value;
    var en := Entry(k, p[i].events + [e]);
    PushAt(p, k, e);
    FlattenAround(p, i);
    FlattenUpdate(p, i, en);
    Regroup(Flatten(p[..i]), p[i].events, e, Flatten(p[i + 1..]));
  }

  lemma PushAt(p: Record, k: Rgb, e: Event)
    requires DistinctKeys(p) && Find(p, k).Some?
    ensures Push(p, k, e) == p[Find(p, k).value := Entry(k, p[Find(p, k).value].events + [e])]
  {
  }

  lemma Regroup(a: seq<Event>, b: seq<Event>, e: Event, c: seq<Event>)
    ensures a + (b + [e]) + c == a + b + [e] + c
  {
  }

  lemma FlattenUpdate(p: Record, i: int, en: Entry)
    requires 0 <= i < |p|
    ensures Flatten(p[i := en]) == Flatten(p[..i]) + en.events + Flatten(p[i + 1..])
  {
    var r := p[i := en];
    FlattenAround(r, i);
    assert r[..i] == p[..i];
    assert r[i + 1..] == p[i + 1..];
  }

  lemma {:induction false} FlattenAround(p: Record, i: int)
    requires 0 <= i < |p|
    ensures Flatten(p) == Flatten(p[..i]) + p[i].events + Flatten(p[i + 1..])
  {
    if i == 0 {
      assert Flatten(p[..0]) == [];
    } else {
      FlattenAround(p[1..], i - 1);
      assert p[1..][..i - 1] == p[..i][1..];
      assert p[1..][i..] == p[i + 1..];
    }
  }

  /** Whether event e paints pixel number q of a w-by-h image. */
  predicate Hits(e: Event, w: int, h: int, q: int) {
    InBounds(e.x, e.y, w, h) && PixelNumber(e.x, e.y, w) == q
  }

  /** No event of es paints pixel q. */
  predicate Misses(es: seq<Event>, w: int, h: int, q: int) {
    forall j :: 0 <= j < |es| ==> !Hits(es[j], w, h, q)
  }

  /** Replaying events on a buffer: every event is a 1-by-1 fill, in order. */
  function Replay(buf: seq<int>, w: int, h: int, es: seq<Event>): (r: seq<int>)
    requires |buf| == 4 * (w * h)
    ensures |r| == |buf|
    ensures Bytes(buf) ==> Bytes(r)
  {
    if |es| == 0 then buf
    else
      var e := es[|es| - 1];
      Fill(Replay(buf, w, h, es[..|es| - 1]), w, h, e.x, e.y, e.colour)
  }

  /** Position of the last event in es that paints pixel q, if any. */
  function LastHit(es: seq<Event>, w: int, h: int, q: int): (r: Option<nat>)
    ensures r.Some? ==> r.value < |es| && Hits(es[r.value], w, h, q)
    ensures r.Some? ==> forall j :: r.value < j < |es| ==> !Hits(es[j], w, h, q)
    ensures r.None? ==> forall j :: 0 <= j < |es| ==> !Hits(es[j], w, h, q)
  {
    if |es| == 0 then None
    else if Hits(es[|es| - 1], w, h, q) then Some(|es| - 1)
    else LastHit(es[..|es| - 1], w, h, q)
  }

  /** Byte k after a replay: the matching byte of the last fill of its pixel, or untouched. */
  lemma {:induction false} ReplayAt(buf: seq<int>, w: int, h: int, es: seq<Event>, k: int)
    requires |buf| == 4 * (w * h) && 0 <= k < |buf|
    ensures Replay(buf, w, h, es)[k] ==
              match LastHit(es, w, h, k / 4)
              case None => buf[k]
              case Some(i) => Channel(es[i].colour, k % 4)
  {
    if |es| > 0 {
      var e := es[|es| - 1];
      var es' := es[..|es| - 1];
      ReplayAt(buf, w, h, es', k);
      FillAt(Replay(buf, w, h, es'), w, h, e.x, e.y, e.colour, k);
    }
  }

  lemma {:induction false} LastHitAppend(a: seq<Event>, b: seq<Event>, w: int, h: int, q: int)
    ensures LastHit(a + b, w, h, q) ==
              match LastHit(b, w, h, q)
              case Some(i) => Some(|a| + i)
              case None => LastHit(a, w, h, q)
  {
    if |b| > 0 {
      var b' := b[..|b| - 1];
      assert (a + b)[..|a + b| - 1] == a + b';
      LastHitAppend(a, b', w, h, q);
    } else {
      assert a + b == a;
    }
  }

  /**
    Inserting a fill into a replay, when no later event paints the same
    pixel, is the same as filling after the whole replay.
   */
  lemma ReplayInsert(buf: seq<int>, w: int, h: int, a: seq<Event>, e: Event, b: seq<Event>)
    requires |buf| == 4 * (w * h)
    requires InBounds(e.x, e.y, w, h) ==> Misses(b, w, h, PixelNumber(e.x, e.y, w))
    ensures Replay(buf, w, h, a + [e] + b) == Fill(Replay(buf, w, h, a + b), w, h, e.x, e.y, e.colour)
  {
    forall k | 0 <= k < |buf|
      ensures Replay(buf, w, h, a + [e] + b)[k] == Fill(Replay(buf, w, h, a + b), w, h, e.x, e.y, e.colour)[k]
    {
      ReplayInsertAt(buf, w, h, a, e, b, k);
    }
  }

  lemma ReplayInsertAt(buf: seq<int>, w: int, h: int, a: seq<Event>, e: Event, b: seq<Event>, k: int)
    requires |buf| == 4 * (w * h) && 0 <= k < |buf|
    requires InBounds(e.x, e.y, w, h) ==> Misses(b, w, h, PixelNumber(e.x, e.y, w))
    ensures Replay(buf, w, h, a + [e] + b)[k] == Fill(Replay(buf, w, h, a + b), w, h, e.x, e.y, e.colour)[k]
  {
    var q := k / 4;
    FillAt(Replay(buf, w, h, a + b), w, h, e.x, e.y, e.colour, k);
    ReplayAt(buf, w, h, a + [e] + b, k);
    ReplayAt(buf, w, h, a + b, k);
    if LastHit(b, w, h, q).Some? {
      InsertBeforeLaterHit(a, e, b, w, h, q);
    } else if Hits(e, w, h, q) {
      InsertLastHit(a, e, b, w, h, q);
    } else {
      InsertMissing(a, e, b, w, h, q);
    }
  }

  /** A later hit in b is the last hit both with and without e, and e itself does not hit. */
  lemma InsertBeforeLaterHit(a: seq<Event>, e: Event, b: seq<Event>, w: int, h: int, q: int)
    requires InBounds(e.x, e.y, w, h) ==> Misses(b, w, h, PixelNumber(e.x, e.y, w))
    requires LastHit(b, w, h, q).Some?
    ensures !Hits(e, w, h, q)
    ensures LastHit(a + [e] + b, w, h, q).Some? && LastHit(a + b, w, h, q).Some?
    ensures (a + [e] + b)[LastHit(a + [e] + b, w, h, q).value] == (a + b)[LastHit(a + b, w, h, q).value]
  {
    var i := LastHit(b, w, h, q).value;
    LastHitAppend(a + [e], b, w, h, q);
    LastHitAppend(a, b, w, h, q);
    assert (a + [e] + b)[|a + [e]| + i] == b[i];
    assert (a + b)[|a| + i] == b[i];
  }

  /** Without later hits, a hitting e is the last hit. */
  lemma InsertLastHit(a: seq<Event>, e: Event, b: seq<Event>, w: int, h: int, q: int)
    requires LastHit(b, w, h, q).None? && Hits(e, w, h, q)
    ensures LastHit(a + [e] + b, w, h, q) == Some(|a|)
    ensures (a + [e] + b)[|a|] == e
  {
    LastHitAppend(a + [e], b, w, h, q);
    LastHitAppend(a, [e], w, h, q);
    assert LastHit([e], w, h, q) == Some(0);
  }

  /** When neither e nor b hits, the last hit is the one in a, if any, with or without e. */
  lemma InsertMissing(a: seq<Event>, e: Event, b: seq<Event>, w: int, h: int, q: int)
    requires LastHit(b, w, h, q).None? && !Hits(e, w, h, q)
    ensures LastHit(a + [e] + b, w, h, q) == LastHit(a, w, h, q) == LastHit(a + b, w, h, q)
    ensures LastHit(a, w, h, q).Some? ==>
              (a + [e] + b)[LastHit(a, w, h, q).value] == (a + b)[LastHit(a, w, h, q).value]
  {
    LastHitAppend(a + [e], b, w, h, q);
    LastHitAppend(a, [e], w, h, q);
    LastHitAppend(a, b, w, h, q);
    assert LastHit([e], w, h, q) == None;
    if LastHit(a, w, h, q).Some? {
      var i := LastHit(a, w, h, q).value;
      assert (a + [e] + b)[i] == a[i] == (a + b)[i];
    }
  }

  /** A redraw: reset to the work buffer, then replay every event in record order. */
  function Redraw(work: seq<int>, w: int, h: int, p: Record): (r: seq<int>)
    requires |work| == 4 * (w * h)
    ensures |r| == |work|
    ensures Bytes(work) ==> Bytes(r)
  {
    Replay(work, w, h, Flatten(p))
  }

  /**
    After a redraw a pixel with no recorded event has its work-buffer bytes,
    and a pixel with events is opaque in the colour of its last event in
    key-then-list order.
   */
  lemma RedrawPixel(work: seq<int>, w: int, h: int, p: Record, x: int, y: int, ch: int)
    requires |work| == 4 * (w * h) && InBounds(x, y, w, h) && 0 <= ch < 4
    ensures Index(x, y, w) + ch < |work|
    ensures Redraw(work, w, h, p)[Index(x, y, w) + ch] ==
              match LastHit(Flatten(p), w, h, PixelNumber(x, y, w))
              case None => work[Index(x, y, w) + ch]
              case Some(i) => Channel(Flatten(p)[i].colour, ch)
  {
    IndexInRange(x, y, w, h);
    var k := Index(x, y, w) + ch;
    assert k / 4 == PixelNumber(x, y, w) && k % 4 == ch;
    ReplayAt(work, w, h, Flatten(p), k);
  }

  /**
    Every in-bounds event sits under the key that is the work-buffer colour
    of its pixel, as a click records it.
   */
  predicate KeyedBy(work: seq<int>, w: int, h: int, p: Record)
    requires |work| == 4 * (w * h)
  {
    forall i, j :: 0 <= i < |p| && 0 <= j < |p[i].events| && InBounds(p[i].events[j].x, p[i].events[j].y, w, h) ==>
      PixelRgb(work, w, h, p[i].events[j].x, p[i].events[j].y) == p[i].key
  }

  /** Under KeyedBy all events of one pixel share one key. */
  lemma SamePixelSameKey(work: seq<int>, w: int, h: int, p: Record, i1: int, j1: int, i2: int, j2: int)
    requires |work| == 4 * (w * h) && KeyedBy(work, w, h, p) && DistinctKeys(p)
    requires 0 <= i1 < |p| && 0 <= j1 < |p[i1].events| && 0 <= i2 < |p| && 0 <= j2 < |p[i2].events|
    requires p[i1].events[j1].x == p[i2].events[j2].x && p[i1].events[j1].y == p[i2].events[j2].y
    requires InBounds(p[i1].events[j1].x, p[i1].events[j1].y, w, h)
    ensures i1 == i2
  {
  }

  /** Creating an empty list keeps every event under its key. */
  lemma KeyedAfterEnsureKey(work: seq<int>, w: int, h: int, p: Record, k: Rgb)
    requires |work| == 4 * (w * h)
    requires DistinctKeys(p) && KeyedBy(work, w, h, p)
    ensures KeyedBy(work, w, h, EnsureKey(p, k))
  {
    if Find(p, k).None? {
      var r := p + [Entry(k, [])];
      assert EnsureKey(p, k) == r;
      forall i, j | 0 <= i < |r| && 0 <= j < |r[i].events| && InBounds(r[i].events[j].x, r[i].events[j].y, w, h)
        ensures PixelRgb(work, w, h, r[i].events[j].x, r[i].events[j].y) == r[i].key
      {
        assert i < |p| && r[i] == p[i];
      }
    }
  }

  /** Appending an event under the work colour of its pixel keeps every event under its key. */
  lemma KeyedAfterPush(work: seq<int>, w: int, h: int, p: Record, k: Rgb, e: Event)
    requires |work| == 4 * (w * h)
    requires DistinctKeys(p) && KeyedBy(work, w, h, p) && Find(p, k).Some?
    requires InBounds(e.x, e.y, w, h) ==> PixelRgb(work, w, h, e.x, e.y) == k
    ensures KeyedBy(work, w, h, Push(p, k, e))
  {
    var i := Find(p, k).value;
    var r := Push(p, k, e);
    assert r == p[i := Entry(k, p[i].events + [e])];
    forall m, n | 0 <= m < |r| && 0 <= n < |r[m].events| && InBounds(r[m].events[n].x, r[m].events[n].y, w, h)
      ensures PixelRgb(work, w, h, r[m].events[n].x, r[m].events[n].y) == r[m].key
    {
      if m == i && n == |p[i].events| {
        assert r[m].events[n] == e;
      } else {
        assert r[m].events[n] == p[m].events[n];
      }
    }
  }

  /** Under KeyedBy, entries after the key of pixel (x, y) hold no event for that pixel. */
  lemma NoLaterHits(work: seq<int>, w: int, h: int, p: Record, i: int, x: int, y: int)
    requires |work| == 4 * (w * h) && InBounds(x, y, w, h)
    requires DistinctKeys(p) && KeyedBy(work, w, h, p)
    requires 0 <= i < |p| && p[i].key == PixelRgb(work, w, h, x, y)
    ensures Misses(Flatten(p[i + 1..]), w, h, PixelNumber(x, y, w))
  {
    var after := Flatten(p[i + 1..]);
    forall j | 0 <= j < |after|
      ensures !Hits(after[j], w, h, PixelNumber(x, y, w))
    {
      var ev := after[j];
      FlattenMember(p[i + 1..], ev);
      var m :| 0 <= m < |p[i + 1..]| && ev in p[i + 1..][m].events;
      var n :| 0 <= n < |p[i + 1 + m].events| && p[i + 1 + m].events[n] == ev;
      if InBounds(ev.x, ev.y, w, h) {
        PixelNumberInjective(ev.x, ev.y, x, y, w, h);
        assert p[i + 1 + m].key != p[i].key;
      }
    }
  }

  /**
    Recording a click event under the work colour of its pixel keeps the
    record keyed by the work buffer, and redrawing the new record gives the
    old redraw with the event's pixel filled. An event outside the image
    paints nothing, so any key will do for it.
   */
  lemma RedrawAfterClick(work: seq<int>, w: int, h: int, p: Record, k: Rgb, e: Event)
    requires |work| == 4 * (w * h)
    requires DistinctKeys(p) && KeyedBy(work, w, h, p)
    requires InBounds(e.x, e.y, w, h) ==> k == PixelRgb(work, w, h, e.x, e.y)
    ensures var p' := Push(EnsureKey(p, k), k, e);
            KeyedBy(work, w, h, p') &&
            Redraw(work, w, h, p') == Fill(Redraw(work, w, h, p), w, h, e.x, e.y, e.colour)
  {
    var p1 := EnsureKey(p, k);
    KeyedAfterEnsureKey(work, w, h, p, k);
    KeyedAfterPush(work, w, h, p1, k, e);
    RedrawKeyedPush(work, w, h, p1, k, e);
    assert Redraw(work, w, h, p1) == Redraw(work, w, h, p);
  }

  /** Appending an event under the work colour of its pixel redraws as a final fill. */
  lemma RedrawKeyedPush(work: seq<int>, w: int, h: int, p: Record, k: Rgb, e: Event)
    requires |work| == 4 * (w * h)
    requires DistinctKeys(p) && KeyedBy(work, w, h, p) && Find(p, k).Some?
    requires InBounds(e.x, e.y, w, h) ==> k == PixelRgb(work, w, h, e.x, e.y)
    ensures Redraw(work, w, h, Push(p, k, e)) == Fill(Redraw(work, w, h, p), w, h, e.x, e.y, e.colour)
  {
    if InBounds(e.x, e.y, w, h) {
      NoLaterHits(work, w, h, p, Find(p, k).value, e.x, e.y);
    }
    RedrawAfterPush(work, w, h, p, k, e);
  }

  /** Appending a fill to a key's list redraws as a final fill when no later key paints that pixel. */
  lemma RedrawAfterPush(work: seq<int>, w: int, h: int, p: Record, k: Rgb, e: Event)
    requires |work| == 4 * (w * h) && DistinctKeys(p) && Find(p, k).Some?
    requires InBounds(e.x, e.y, w, h) ==> Misses(Flatten(p[Find(p, k).value + 1..]), w, h, PixelNumber(e.x, e.y, w))
    ensures Redraw(work, w, h, Push(p, k, e)) == Fill(Redraw(work, w, h, p), w, h, e.x, e.y, e.colour)
  {
    var i := Find(p, k).value;
    FlattenPush(p, k, e);
    var before := Flatten(p[..i]) + p[i].events;
    var after := Flatten(p[i + 1..]);
    ReplayInsert(work, w, h, before, e, after);
  }

}
